=== FILE: README.md ===
# ProjectAirline booking core in Dafny

A model of the seat inventory and booking lifecycle of ProjectAirline, a
Spring Boot airline reservation service. The model covers:

- creating a booking against a flight's availability row;
- cancelling a whole booking;
- cancelling some of a booking's tickets, which promotes the booking to
  cancelled once every seat is cancelled;
- the booking and passenger queries;
- the request validation that guards these operations.

The store is a pure value (`Store.State`) with three maps:

- availability rows keyed by flight and date;
- bookings keyed by reference id;
- passengers keyed by ticket number.

Two counters stand for the id generators of the `booking_save` and
`passenger_save` procedures. Every service is a function from a store to a
new store and a result, or to a `Failures.ServiceError`. A failure carries
no store: each service method is transactional, and every failure is a
runtime exception that rolls it back.

Modules, in dependency order:

- `JavaLang`: nullable references, 32-bit `int` wrap-around,
  `equalsIgnoreCase`, and `==` between boxed `Integer`s.
- `Validation`: the validators. Each is proved against an ordered table of
  checks: the verdict names the first failing field.
- `Failures`: the service errors and `Result`.
- `Store`: entities, repository queries and writes.
- `BookingService`: `createBooking`, `cancelBookingService` and the two
  booking queries.
- `PassengerService`: `cancelPassengerByTicketService` and the passenger
  listing.
- `Lifecycle`: properties that span operations:
  - well-formedness is preserved, and cancelled rows never revive;
  - a seat ledger is conserved: for each flight, seats left plus tickets
    held stays the same;
  - two round trips: create then cancel whole, and create then cancel
    every ticket. Both give the flight its seats back.

Where the intended behaviour and the code differ, the model follows the code:

- Validation checks only that `bookedSeats` is present, not that it is
  positive. A negative count passes, and the create then raises
  availability or wraps it below zero (`Lifecycle.CreateSeatBounds`).
- Nothing checks that `bookedSeats` equals the number of passengers. The
  ledger and round-trip lemmas require it.
- Reserving seats is a read, a check, then an absolute write of the new
  count. It is not an atomic decrement, and concurrency is not modelled.
- Returning seats adds them as a Java `int`, with no capacity bound. It
  wraps past 2^31 - 1.
- Both cancellations read the flight key through the booking's flight link
  whether or not any seat is returned (BookingService.java:496-498,
  PassengerService.java:285-286). Every booking a service returns is also
  converted through that link (DtoConverter.java:134-141). So a booking
  whose flight row is missing fails every cancel and every booking
  lookup, even a cancel that frees no seat. The passenger listing does
  not read the link: each passenger is converted with only its booking's
  reference id (DtoConverter.java:185-198), so it still succeeds
  (`PassengerService.PassengerListingOutcome`). The model reports this as `FlightNotAvailable`
  (`Store.ReturnSeats`, `BookingService.GetBookingByReference`,
  `BookingService.GetBookingsForUser`). In the source it is a null
  dereference or a JPA entity-not-found error, depending on how the link
  is loaded.
- The partial cancel runs its ticket loop before it looks up the booking.
  An unknown reference therefore fails after the tickets are checked.
- A missing availability row in a create is the dereference of a null row
  (`FlightNotAvailable`), not a distinct not-found error.
- The cascade of the partial cancel compares two boxed `Integer`s with `==`
  (see Findings).

## Model

| member | source | states |
|---|---|---|
| JavaLang.Wrap | ProjectAirline/src/main/java/com/training/airline/service/BookingService.java:266-284 | the Java `int` result of seat arithmetic is congruent to the exact value mod 2^32, equal to it in range, and exactly 2^32 less just above `Integer.MAX_VALUE` |
| JavaLang.IgnoreCaseLetter | ProjectAirline/src/main/java/com/training/airline/utility/Validation.java:297 | the status check `equalsIgnoreCase("B")` accepts exactly "B" and "b" (no other character folds to B) |
| Validation.UserValidation | ProjectAirline/src/main/java/com/training/airline/utility/Validation.java:123-242 | a user request is valid iff every check passes (16-character card number, type 'C', month 1-12, year 2022-2030, age 18-100), and a failure names the first failing field in declaration order |
| Validation.UserNullsUnboxed | ProjectAirline/src/main/java/com/training/airline/utility/Validation.java:200-242 | a failure is a null-unboxing exception exactly when the failing field is a null month, year or age |
| Validation.PassengerValidation | ProjectAirline/src/main/java/com/training/airline/utility/Validation.java:251-310 | a passenger entry is valid iff name, age and status checks all pass; a failure names the first failing field |
| Validation.PassengerAcceptance | ProjectAirline/src/main/java/com/training/airline/utility/Validation.java:251-310 | an entry passes iff it has a non-empty name, an age, and status "B" or "b" |
| Validation.PassengersValidation | ProjectAirline/src/main/java/com/training/airline/utility/Validation.java:431-439 | the passenger loop is valid iff every entry is; otherwise its verdict is that of the first failing entry |
| Validation.BookingValidation | ProjectAirline/src/main/java/com/training/airline/utility/Validation.java:319-444 | a booking request is valid iff all seven field checks and every passenger pass; a failure of a field check names the first one, and passenger failures come only after all field checks pass |
| Validation.BookingAcceptance | ProjectAirline/src/main/java/com/training/airline/utility/Validation.java:319-444 | a valid booking request has status "B" or "b", at least one passenger, and only valid passengers |
| Validation.SeatsAndCostOnlyNeedPresence | ProjectAirline/src/main/java/com/training/airline/utility/Validation.java:388-414 | any present seat count and total cost give the same verdict, so negative or zero seats pass |
| Validation.TicketsValidation | ProjectAirline/src/main/java/com/training/airline/utility/Validation.java:475-494 | the ticket loop passes iff no ticket number is null |
| Validation.CancelPassengerValidation | ProjectAirline/src/main/java/com/training/airline/utility/Validation.java:453-499 | the request is valid iff the reference and every ticket number are present; a null reference is reported before a null ticket |
| Store.PassengerListingComplete | ProjectAirline/src/main/java/com/training/airline/repository/PassengerRepository.java:35-37 | in a well-formed store the listing holds every passenger of the booking once, only those, in ascending ticket order |
| Store.SaveBookingAddsOne | ProjectAirline/src/main/java/com/training/airline/repository/BookingRepository.java:52-54 | a successful booking insert adds one booking in status B under a fresh reference id and changes nothing else |
| Store.SavePassengerAddsOne | ProjectAirline/src/main/java/com/training/airline/repository/PassengerRepository.java:51-53 | a successful passenger insert adds one passenger in status B under a fresh ticket number and changes nothing else |
| Store.CancelBookingRowFlips | ProjectAirline/src/main/java/com/training/airline/repository/BookingRepository.java:67-69 | the booking status update sets only that booking to C and reports one updated row iff it exists |
| Store.CancelTicketRowFlips | ProjectAirline/src/main/java/com/training/airline/repository/PassengerRepository.java:82-85 | the ticket status update sets only the passenger with that ticket and reference to C and reports one updated row iff it exists |
| Store.UpdateSeatsWrites | ProjectAirline/src/main/java/com/training/airline/repository/FlightAvailRepository.java:70-73 | the seat update overwrites only that row's seat count and reports one updated row iff it exists |
| Store.ReturnSeats | ProjectAirline/src/main/java/com/training/airline/service/BookingService.java:493-524 | the return fails iff the booking's flight row is missing, whatever the number of seats; otherwise returning no seats touches nothing, and returning n > 0 seats adds n to that row's seat count as a Java `int` |
| BookingService.SavePassengers | ProjectAirline/src/main/java/com/training/airline/service/BookingService.java:238-262 | the passenger loop fails iff some remaining insert fails, with the insert error; on success only passengers and the ticket generator change, by one ticket per entry |
| BookingService.SavePassengersRows | ProjectAirline/src/main/java/com/training/airline/service/BookingService.java:238-262 | a completed loop stores entry i + k under the k-th ticket it hands out, booked and linked to the booking, and keeps every older row |
| BookingService.SavePassengersAddsRows | ProjectAirline/src/main/java/com/training/airline/service/BookingService.java:238-262 | when stored tickets all come from the generator, the loop adds exactly one row per entry |
| BookingService.PassengerLoopAdds | ProjectAirline/src/main/java/com/training/airline/service/BookingService.java:238-262 | the whole loop adds one booked passenger per entry, in order, under fresh tickets, and leaves existing rows alone |
| BookingService.WholeLoopRows | ProjectAirline/src/main/java/com/training/airline/service/BookingService.java:238-262 | entry j is stored under the j-th ticket number the loop hands out |
| BookingService.CreateValidated | ProjectAirline/src/main/java/com/training/airline/service/BookingService.java:200-301 | a missing flight row, too few seats, a failed booking insert or a failed passenger insert each fail with their own error; success is exactly `Reserved`: seats drop by the request, one booked booking priced by the server, one passenger per entry |
| BookingService.SavedAsReserved | ProjectAirline/src/main/java/com/training/airline/service/BookingService.java:218-284 | after the booking insert and the passenger loop, the seat update hits its row and the result is the store `Reserved` describes |
| BookingService.CreateBooking | ProjectAirline/src/main/java/com/training/airline/service/BookingService.java:189-338 | an invalid request is rejected with its verdict before any lookup; otherwise the outcome is as for `CreateValidated` |
| BookingService.CancelListed | ProjectAirline/src/main/java/com/training/airline/service/BookingService.java:437-476 | the loop succeeds iff every booked entry is a ticket of the booking; it then cancels exactly the booked entries and counts them |
| BookingService.CancelBooking | ProjectAirline/src/main/java/com/training/airline/service/BookingService.java:352-552 | a null reference, then null seats, then an unknown booking, then an already cancelled one fail in that order; success cancels the booking row and nothing else in the bookings |
| BookingService.ListingMatchesStore | ProjectAirline/src/main/java/com/training/airline/service/BookingService.java:437-476 | the list the full cancel loads has each ticket of the booking once, and its booked entries are the booking's booked tickets |
| BookingService.ListingCancelledWhole | ProjectAirline/src/main/java/com/training/airline/service/BookingService.java:437-476 | over that list the loop succeeds, cancels every passenger of the booking, nobody else, and counts those that were booked |
| BookingService.CancelBookingCascades | ProjectAirline/src/main/java/com/training/airline/service/BookingService.java:352-552 | a full cancel of a booked booking succeeds iff its flight row exists, and fails otherwise with `FlightNotAvailable`; success cancels all its passengers and returns exactly the seats still held |
| BookingService.GetBookingsForUser | ProjectAirline/src/main/java/com/training/airline/service/BookingService.java:76-151 | a null user id fails; an empty listing fails with `NoBookingsForUser`; a non-empty listing with a booking whose flight row is missing fails with `FlightNotAvailable`; otherwise the non-empty listing is returned, every booking in it on an existing flight row |
| BookingService.UserBookingsListed | ProjectAirline/src/main/java/com/training/airline/service/BookingService.java:76-151 | the call fails with `NoBookingsForUser` iff the user has no booking, and with `FlightNotAvailable` iff one of the user's bookings has no flight row; it lists each of the user's bookings, only those, in ascending reference order |
| BookingService.GetBookingByReference | ProjectAirline/src/main/java/com/training/airline/service/BookingService.java:562-602 | a null reference or an unknown booking fails; a known booking is found iff its flight row exists, and is then returned as stored with passengers of that booking only |
| BookingService.BookingViewComplete | ProjectAirline/src/main/java/com/training/airline/service/BookingService.java:562-602 | in a well-formed store a lookup of a stored booking succeeds iff its flight row exists, and then lists each of its passengers once, only those, in ascending ticket order |
| PassengerService.CancelTickets | ProjectAirline/src/main/java/com/training/airline/service/PassengerService.java:182-232 | the ticket loop succeeds iff every listed ticket exists and the booked ones belong to the booking; it cancels exactly the listed tickets still booked and counts them |
| PassengerService.CascadeAsWrittenAgreesOnlyBelowCache | ProjectAirline/src/main/java/com/training/airline/service/PassengerService.java:254-259 | the cascade test as written holds iff the counts are equal and at most 127 |
| PassengerService.LargeBookingNeverCascadesAsWritten | ProjectAirline/src/main/java/com/training/airline/service/PassengerService.java:254-259 | a 200-seat booking with 200 cancelled tickets is due to cascade, but the test as written does not fire |
| PassengerService.CancelPassengers | ProjectAirline/src/main/java/com/training/airline/service/PassengerService.java:164-360 | an invalid request is rejected with its verdict; a valid one succeeds iff every listed ticket exists, the booked ones belong to the booking, the booking exists, and the booking's flight row exists; success is exactly `CancelledListed`: the listed tickets still booked are cancelled, the booking cascades iff its cancelled count reaches its seats, and only the freed seats return |
| PassengerService.CancelValidated | ProjectAirline/src/main/java/com/training/airline/service/PassengerService.java:182-322 | after validation: succeeds iff every listed ticket exists, the booked ones belong to the booking, the booking exists, and the booking's flight row exists; success is `CancelledListed` |
| PassengerService.SeatsFollowNewCancellations | ProjectAirline/src/main/java/com/training/airline/service/PassengerService.java:285-311 | the seats returned are the growth of the booking's cancelled count from this call, never the cumulative count |
| PassengerService.CancelledGrowth | ProjectAirline/src/main/java/com/training/airline/service/PassengerService.java:254-255 | cancelling a set of booked tickets of a booking raises its cancelled-ticket count by the size of that set |
| PassengerService.CancelPassengersIdempotent | ProjectAirline/src/main/java/com/training/airline/service/PassengerService.java:164-360 | repeating a successful partial cancel returns the same store and view |
| PassengerService.GetBookingPassengers | ProjectAirline/src/main/java/com/training/airline/service/PassengerService.java:76-154 | a null reference or an empty listing fails; otherwise a non-empty list of passengers of that booking |
| PassengerService.PassengerListingOutcome | ProjectAirline/src/main/java/com/training/airline/service/PassengerService.java:76-154 | the listing fails iff the booking has no passengers, and otherwise lists each of them once in ticket order |
| Lifecycle.CreatedShape | ProjectAirline/src/main/java/com/training/airline/service/BookingService.java:222-262 | a successful create adds one booking and one booked ticket per passenger, keeps every row, keeps the store well formed and revives nothing |
| Lifecycle.CreatedAdds | ProjectAirline/src/main/java/com/training/airline/service/BookingService.java:222-262 | a successful create adds one booking on the requested flight and one booked ticket per passenger under it |
| Lifecycle.CreatePreservesInvariants | ProjectAirline/src/main/java/com/training/airline/service/BookingService.java:189-338 | a successful create keeps the store well formed and revives nothing |
| Lifecycle.HeldAfterAdd | ProjectAirline/src/main/java/com/training/airline/service/BookingService.java:238-262 | adding a booking with new booked tickets adds exactly those to its flight's held tickets and changes no other flight's |
| Lifecycle.LedgerAfterAdd | ProjectAirline/src/main/java/com/training/airline/service/BookingService.java:205-284 | taking k seats while adding k booked tickets keeps seats plus held tickets for every flight |
| Lifecycle.NewTicketsCount | ProjectAirline/src/main/java/com/training/airline/service/BookingService.java:238-262 | a transition that keeps every ticket and grows the table by k adds exactly k tickets |
| Lifecycle.CreateTakesSeats | ProjectAirline/src/main/java/com/training/airline/service/BookingService.java:205-284 | a create of a non-negative seat count takes exactly that many seats, without wrapping |
| Lifecycle.CreateKeepsLedger | ProjectAirline/src/main/java/com/training/airline/service/BookingService.java:205-284 | a successful create booking one seat per passenger keeps seats plus held tickets for every flight |
| Lifecycle.LedgerAfterCreate | ProjectAirline/src/main/java/com/training/airline/service/BookingService.java:205-284 | the same ledger for any store a successful create produces |
| Lifecycle.CreateSeatBounds | ProjectAirline/src/main/java/com/training/airline/service/BookingService.java:205-284 | a non-negative request leaves a non-negative count lowered by the request; a negative one raises the count or wraps it below zero |
| Lifecycle.ClientTotalIgnored | ProjectAirline/src/main/java/com/training/airline/service/BookingService.java:218 | the client's total cost never changes the outcome of a create; the server prices the booking |
| Lifecycle.CancelBookingPreservesInvariants | ProjectAirline/src/main/java/com/training/airline/service/BookingService.java:422-476 | a successful full cancel keeps the store well formed and revives nothing |
| Lifecycle.HeldAfterFlip | ProjectAirline/src/main/java/com/training/airline/service/BookingService.java:437-476 | cancelling booked tickets of one booking removes exactly those from its flight's held tickets |
| Lifecycle.CancelBookingKeepsLedger | ProjectAirline/src/main/java/com/training/airline/service/BookingService.java:437-524 | a successful full cancel keeps seats plus held tickets for every flight |
| Lifecycle.CancelPassengersPreservesInvariants | ProjectAirline/src/main/java/com/training/airline/service/PassengerService.java:182-281 | a successful partial cancel keeps the store well formed and revives nothing |
| Lifecycle.CancelPassengersKeepsLedger | ProjectAirline/src/main/java/com/training/airline/service/PassengerService.java:182-311 | a successful partial cancel keeps seats plus held tickets for every flight |
| Lifecycle.NewBookingTickets | ProjectAirline/src/main/java/com/training/airline/service/BookingService.java:238-262 | the booked tickets of a booking just created are exactly the tickets the create added, k of them |
| Lifecycle.CreateThenCancelRestoresSeats | ProjectAirline/src/main/java/com/training/airline/service/BookingService.java:189-552 | creating a booking of one seat per passenger and cancelling it whole succeeds, restores every flight's availability, and cancels the booking and all its tickets |
| Lifecycle.CancelJustAdded | ProjectAirline/src/main/java/com/training/airline/service/BookingService.java:352-552 | a full cancel of a booking holding k > 0 tickets, after k seats were taken, restores availability |
| Lifecycle.CreateThenCancelTicketsRestoresSeats | ProjectAirline/src/main/java/com/training/airline/service/PassengerService.java:164-360 | creating a booking of one seat per passenger and cancelling all its tickets in one request succeeds, restores availability and cascades the booking to cancelled, whatever its size |
| Lifecycle.CancelTicketsAfterCreate | ProjectAirline/src/main/java/com/training/airline/service/PassengerService.java:164-360 | the same round trip for any store a successful create produces |
| Lifecycle.CreatedTickets | ProjectAirline/src/main/java/com/training/airline/service/BookingService.java:222-284 | a create hands out the next tickets in order, books the new booking with one seat per passenger, and takes those seats |
| Lifecycle.CancelTicketsAfterAdd | ProjectAirline/src/main/java/com/training/airline/service/PassengerService.java:164-360 | cancelling in one request all tickets just added for a booking of one seat per ticket restores availability and cascades the booking |
| Lifecycle.ListedNewTickets | ProjectAirline/src/main/java/com/training/airline/service/PassengerService.java:182-232 | listing the new ticket numbers names every ticket of the new booking, each still booked and none cancelled |
| Lifecycle.CancelTicketsOfNew | ProjectAirline/src/main/java/com/training/airline/service/PassengerService.java:164-360 | cancelling every ticket of a booking whose seats equal its tickets cascades the booking and returns all its seats |
| Lifecycle.SeatsRestored | ProjectAirline/src/main/java/com/training/airline/service/PassengerService.java:290-311 | taking k seats and returning k as a Java `int` restores the availability rows |

## Left out

- HTTP controllers, DTO conversion, logging, JPA entity wiring and Spring configuration: these are plumbing around the services.
- The user, city, flight and flight-availability services and the password utility. The booking core does not call them.
- `floatValidation` and `Float` prices. Cost and totals are integers in minor units, and float rounding of `cost * bookedSeats` is not modelled.
- The SQL of the repositories and stored procedures is not part of this model. Each repository call is a map update chosen from its name, parameters and documentation. Insert failures of the procedures are a parameter (`ProcedureFaults`). Where the documentation leaves the behaviour open, the model fixes it as follows.
- Store.CancelTicketRow: matches the ticket number AND the reference id, because the query takes both parameters. Its documentation names only the ticket number. If the query filtered on the ticket alone, a ticket of another booking listed under this reference would be cancelled, and its seat returned to this booking's flight. The model reports `TicketCancelFailed` instead.
- Store.SaveBooking and Store.SavePassenger: store the new row in status B. The procedures take no status parameter, so the model assumes they write B, which is what every later status check in the services expects.
- Store.PassengersOf and Store.BookingsOfUser: return rows in ascending ticket number and reference id. No ORDER BY is visible, so the listing order is an assumption of the model. The count and membership facts do not depend on it.
- Reads within one service call see that call's own earlier writes. This is an assumption of the model, which threads one store through each call. In the source the status writes are native `@Modifying` queries without `clearAutomatically` (PassengerRepository.java:66 and 82, BookingRepository.java:67). An entity loaded earlier in the same call therefore keeps its old status. The three lines below name what this changes.
- PassengerService.CancelPassengers: counts a ticket listed twice once. In the source the second `findById` (PassengerService.java:188) returns the cached passenger, still in status B, so the ticket is cancelled again. If the database reports matched rows, the ticket is counted twice and two seats go back to the flight for one ticket. If it reports changed rows, the second update reports 0 and the call fails with `TicketCancelFailed`. Which one happens depends on the database, which is not part of this model.
- BookingService.CancelBooking: returns the booking and its passengers as stored after the call, all in status C. In the source the re-read at BookingService.java:479 returns the booking entity loaded at line 389, whose status is still B, and the passengers it converts keep the status they were loaded with.
- PassengerService.CancelPassengers: returns the passengers as stored after the call. In the source the reload at PassengerService.java:317-319 returns the cached passengers loaded at line 188, so the tickets cancelled in this call still show status B.
- The DTO conversion also reads the booking's user (DtoConverter.java:134-135). Users are not part of this model, so every booking's user is assumed present.
- Concurrency. Interleaved reserves and releases on one flight row, and so the atomicity of the seat update, are not modelled.
- Null nested objects in a request (a null user or flight inside `BookingDto`). Validation dereferences them without a check. Only the validated fields are nullable in the model.
- Validation.UserValidation: measures the card number's length in Unicode scalar values. Java's `length()` counts UTF-16 code units, so a 15-character string containing one character outside the Basic Multilingual Plane has Java length 16 and passes. The model rejects it.
- JavaLang.EqualsIgnoreCase: folds ASCII letters only. Java's `equalsIgnoreCase` also matches some non-ASCII letters, for example the Kelvin sign with "K". No character other than "b" and "B" matches the only code the services compare, "B".
- Date formatting. `dateValidation` tests the textual form of a non-null date, which is never empty, so only null matters.
- The entity lists a service returns are converted to DTOs in the source. The model returns the entities.
- Lifecycle.CreateKeepsLedger: holds only when the request books one seat per passenger, which the code never checks.
- Lifecycle.CreateThenCancelRestoresSeats: requires one seat per passenger, as above.
- Lifecycle.CreateThenCancelTicketsRestoresSeats: requires one seat per passenger. The cascade is the value comparison `PassengerService.CascadeDue`, not the identity test as written.
- Lifecycle.CancelBookingKeepsLedger: requires that seats plus held tickets fit in a Java `int`. Past that the returned seats wrap.
- Lifecycle.CancelPassengersKeepsLedger: requires that seats plus held tickets fit in a Java `int`, as above.
- PassengerService.CancelPassengers: cascades on value equality of the seat count and the cancelled count (`CascadeDue`). The identity test as written is modelled separately (Findings).

## Findings

| source | as written | input that shows it | evidently intended | confidence | as-written member | corrected member |
|---|---|---|---|---|---|---|
| ProjectAirline/src/main/java/com/training/airline/service/PassengerService.java:259 | `booking.getBookedSeats() == cancelledTicketsCount` compares two `Integer` objects by identity; independently boxed values are the same object only inside the `Integer` cache (-128..127) | a booking of 200 seats whose 200 tickets are all cancelled: the counts are equal, but the booking is never promoted to cancelled | compare the values (`equals` / `intValue()`), so that the booking cascades whenever all its seats are cancelled | medium, not executed (depends on the boxing path of the JPA entity and the repository result) | PassengerService.LargeBookingNeverCascadesAsWritten | Lifecycle.CancelTicketsOfNew |

=== FILE: booking_service.dfy ===
/**
  The booking orchestration (`BookingService`): creating a booking against
  the seat inventory, cancelling a whole booking, and the two booking
  queries. Each operation maps a store to a new store and a result, or to a
  failure that leaves the store untouched.
 */
module BookingService {
  import opened JavaLang
  import opened Validation
  import opened Store
  import opened Failures

  /** Which calls of the `booking_save` and `passenger_save` procedures report
      "Insertion failed"; passenger calls are named by the position of their
      entry in the request. Why a procedure fails is not visible to the model. */
  datatype ProcedureFaults = ProcedureFaults(bookingSave: bool, passengerSave: set<nat>)

  function RequestedFlight(b: BookingRequest): FlightKey
    requires b.flightId.NonNull? && b.flightDate.NonNull?
  {
    FlightKey(b.flightId.value, b.flightDate.value)
  }

  /** The passenger loop of the create: saves entries `i..` in order and
      stops at the first one the procedure rejects. */
  function SavePassengers(s: State, ref: int, ps: seq<PassengerRequest>, failing: set<nat>, i: nat): (r: Result<State>)
    requires i <= |ps|
    requires forall j :: i <= j < |ps| ==> ps[j].name.NonNull? && ps[j].age.NonNull?
    decreases |ps| - i
    ensures r.Err? <==> exists j :: i <= j < |ps| && j in failing
    ensures r.Err? ==> r.error == PassengerInsertFailed
    ensures r.Ok? ==>
      && r.value.avail == s.avail
      && r.value.bookings == s.bookings
      && r.value.nextReference == s.nextReference
      && r.value.nextTicket == s.nextTicket + (|ps| - i)
  {
    if i == |ps| then Ok(s)
    else if i in failing then Err(PassengerInsertFailed)
    else
      var s1 := SavePassenger(s, ref, ps[i].name.value, ps[i].age.value).0;
      SavePassengers(s1, ref, ps, failing, i + 1)
  }

  /** A completed loop stores entry `i + k` under the `k`-th ticket number it
      hands out, linked to `ref` and booked, and leaves the rows below the
      generator as they were. */
  lemma {:induction false} SavePassengersRows(s: State, ref: int, ps: seq<PassengerRequest>, failing: set<nat>, i: nat)
    requires i <= |ps|
    requires forall j :: i <= j < |ps| ==> ps[j].name.NonNull? && ps[j].age.NonNull?
    requires SavePassengers(s, ref, ps, failing, i).Ok?
    decreases |ps| - i
    ensures var s' := SavePassengers(s, ref, ps, failing, i).value;
      && (forall t :: t in s'.passengers <==> t in s.passengers || s.nextTicket <= t < s'.nextTicket)
      && (forall t :: t in s.passengers && t < s.nextTicket ==> s'.passengers[t] == s.passengers[t])
      && (forall t :: s.nextTicket <= t < s'.nextTicket ==>
            s'.passengers[t]
              == Passenger(t, ref, ps[i + (t - s.nextTicket)].name.value, ps[i + (t - s.nextTicket)].age.value, Booked))
  {
    if i < |ps| {
      var s1 := SavePassenger(s, ref, ps[i].name.value, ps[i].age.value).0;
      SavePassengersRows(s1, ref, ps, failing, i + 1);
      var s' := SavePassengers(s, ref, ps, failing, i).value;
      assert s' == SavePassengers(s1, ref, ps, failing, i + 1).value;
      forall t | s.nextTicket <= t < s'.nextTicket
        ensures s'.passengers[t]
          == Passenger(t, ref, ps[i + (t - s.nextTicket)].name.value, ps[i + (t - s.nextTicket)].age.value, Booked)
      {
        if t > s.nextTicket {
          assert i + 1 + (t - s1.nextTicket) == i + (t - s.nextTicket);
        }
      }
    }
  }

  /** When every stored ticket number is below the generator, the passenger
      loop adds exactly one row per remaining entry. */
  lemma {:induction false} SavePassengersAddsRows(s: State, ref: int, ps: seq<PassengerRequest>, failing: set<nat>, i: nat)
    requires i <= |ps|
    requires forall j :: i <= j < |ps| ==> ps[j].name.NonNull? && ps[j].age.NonNull?
    requires SavePassengers(s, ref, ps, failing, i).Ok?
    decreases |ps| - i
    ensures TicketsFromGenerator(s.passengers, s.nextTicket) ==>
      |SavePassengers(s, ref, ps, failing, i).value.passengers| == |s.passengers| + (|ps| - i)
  {
    if i < |ps| && TicketsFromGenerator(s.passengers, s.nextTicket) {
      var s1 := SavePassenger(s, ref, ps[i].name.value, ps[i].age.value).0;
      assert s.nextTicket !in s.passengers;
      SavePassengersAddsRows(s1, ref, ps, failing, i + 1);
    }
  }

  /** One new passenger per entry, in order, under fresh ticket numbers and
      linked to booking `ref`; existing passengers unchanged. */
  ghost predicate AddsPassengers(P: map<int, Passenger>, next: int, P': map<int, Passenger>, next': int,
                                 ref: int, ps: seq<PassengerRequest>)
    requires forall j :: 0 <= j < |ps| ==> ps[j].name.NonNull? && ps[j].age.NonNull?
  {
    && next' == next + |ps|
    && (forall t :: t in P' <==> t in P || next <= t < next')
    && (forall t :: t in P && t < next ==> P'[t] == P[t])
    && (forall t :: next <= t < next' ==>
          P'[t] == Passenger(t, ref, ps[t - next].name.value, ps[t - next].age.value, Booked))
    // when every stored ticket came from the generator, exactly |ps| rows are added
    && (TicketsFromGenerator(P, next) ==> |P'| == |P| + |ps|)
  }

  /** Everything a successful create of a validated request does, stated
      against the store before it. */
  ghost predicate Reserved(s: State, userId: int, key: FlightKey, seats: Int32, ps: seq<PassengerRequest>, s': State, v: BookingView)
    requires forall j :: 0 <= j < |ps| ==> ps[j].name.NonNull? && ps[j].age.NonNull?
  {
    var ref := s.nextReference;
    && key in s.avail && s.avail[key].seats >= seats
    // the seat count of the flight drops by the seats requested (as a Java int)
    && s'.avail == s.avail[key := s.avail[key].(seats := Wrap(s.avail[key].seats - seats))]
    // one new booking in status B, priced by the server
    && s'.bookings == s.bookings[ref := Booking(ref, userId, key, Booked, seats, s.avail[key].cost * seats)]
    && s'.nextReference == ref + 1
    && AddsPassengers(s.passengers, s.nextTicket, s'.passengers, s'.nextTicket, ref, ps)
    && ref in s'.bookings
    && v == ViewOf(s', ref)
  }

  /** `Reserved`, for the fields of a valid booking request. */
  ghost predicate CreatedAsRequested(s: State, b: BookingRequest, s': State, v: BookingView)
    requires BookingValidation(b).Valid?
  {
    Reserved(s, b.userId.value, RequestedFlight(b), b.bookedSeats.value, b.passengers, s', v)
  }

  /** The part of `createBooking` after validation: seat check, booking and
      passenger inserts, seat update. Only the listed fields of the request
      are read from here on. */
  function CreateValidated(s: State, userId: int, key: FlightKey, seats: Int32, ps: seq<PassengerRequest>, faults: ProcedureFaults): (r: Result<(State, BookingView)>)
    requires forall j :: 0 <= j < |ps| ==> ps[j].name.NonNull? && ps[j].age.NonNull?
    ensures key !in s.avail ==> r == Err(FlightNotAvailable)
    ensures key in s.avail && s.avail[key].seats < seats ==> r == Err(NotEnoughSeats)
    ensures key in s.avail && s.avail[key].seats >= seats && faults.bookingSave ==> r == Err(BookingInsertFailed)
    ensures key in s.avail && s.avail[key].seats >= seats && !faults.bookingSave ==>
      (r.Err? <==> exists j :: 0 <= j < |ps| && j in faults.passengerSave)
    ensures (key in s.avail && s.avail[key].seats >= seats && !faults.bookingSave
             && exists j :: 0 <= j < |ps| && j in faults.passengerSave) ==> r == Err(PassengerInsertFailed)
    ensures r.Err? ==> !r.error.Rejected?
    ensures r.Ok? ==> Reserved(s, userId, key, seats, ps, r.value.0, r.value.1)
  {
    if key !in s.avail then Err(FlightNotAvailable)
    else if s.avail[key].seats < seats then Err(NotEnoughSeats)
    else if faults.bookingSave then Err(BookingInsertFailed)
    else
      // the total is computed from the stored price; the client's total is ignored
      var saved := SaveBooking(s, userId, key, seats, s.avail[key].cost * seats);
      var ref := saved.1;
      match SavePassengers(saved.0, ref, ps, faults.passengerSave, 0)
      case Err(e) => Err(e)
      case Ok(s2) =>
        SavedAsReserved(s, userId, key, seats, ps, faults.passengerSave, s2);
        var update := UpdateSeats(s2.avail, key, Wrap(s.avail[key].seats - seats));
        if update.1 == 0 then Err(SeatUpdateFailed)
        else
          var s3 := s2.(avail := update.0);
          Ok((s3, ViewOf(s3, ref)))
  }

  /** The store after the booking insert, the passenger loop and the seat
      update is the one `Reserved` describes. */
  lemma SavedAsReserved(s: State, userId: int, key: FlightKey, seats: Int32, ps: seq<PassengerRequest>, failing: set<nat>, s2: State)
    requires forall j :: 0 <= j < |ps| ==> ps[j].name.NonNull? && ps[j].age.NonNull?
    requires key in s.avail && s.avail[key].seats >= seats
    requires SavePassengers(SaveBooking(s, userId, key, seats, s.avail[key].cost * seats).0,
                            s.nextReference, ps, failing, 0) == Ok(s2)
    ensures UpdateSeats(s2.avail, key, Wrap(s.avail[key].seats - seats)).1 == 1
    ensures var s3 := s2.(avail := UpdateSeats(s2.avail, key, Wrap(s.avail[key].seats - seats)).0);
      Reserved(s, userId, key, seats, ps, s3, ViewOf(s3, s.nextReference))
  {
    var s1 := SaveBooking(s, userId, key, seats, s.avail[key].cost * seats).0;
    var ref := s.nextReference;
    var s3 := s2.(avail := UpdateSeats(s2.avail, key, Wrap(s.avail[key].seats - seats)).0);
    assert s2.avail == s.avail;
    assert s3.avail == s.avail[key := s.avail[key].(seats := Wrap(s.avail[key].seats - seats))];
    assert s3.bookings == s.bookings[ref := Booking(ref, userId, key, Booked, seats, s.avail[key].cost * seats)];
    PassengerLoopAdds(s1, ref, ps, failing, s2);
    assert s1.passengers == s.passengers && s1.nextTicket == s.nextTicket;
    assert s3.passengers == s2.passengers && s3.nextTicket == s2.nextTicket;
  }

  /** The passenger loop, run from the first entry, adds exactly the
      requested rows. */
  lemma PassengerLoopAdds(s1: State, ref: int, ps: seq<PassengerRequest>, failing: set<nat>, s2: State)
    requires forall j :: 0 <= j < |ps| ==> ps[j].name.NonNull? && ps[j].age.NonNull?
    requires SavePassengers(s1, ref, ps, failing, 0) == Ok(s2)
    ensures AddsPassengers(s1.passengers, s1.nextTicket, s2.passengers, s2.nextTicket, ref, ps)
  {
    SavePassengersRows(s1, ref, ps, failing, 0);
    SavePassengersAddsRows(s1, ref, ps, failing, 0);
    WholeLoopRows(s1, ref, ps, failing, s2);
  }

  /** Run from the first request, the loop stores request `j` under the
      `j`-th ticket number it hands out. */
  lemma WholeLoopRows(s1: State, ref: int, ps: seq<PassengerRequest>, failing: set<nat>, s2: State)
    requires forall j :: 0 <= j < |ps| ==> ps[j].name.NonNull? && ps[j].age.NonNull?
    requires SavePassengers(s1, ref, ps, failing, 0) == Ok(s2)
    ensures forall t :: s1.nextTicket <= t < s2.nextTicket ==>
      t in s2.passengers && s2.passengers[t] == Passenger(t, ref, ps[t - s1.nextTicket].name.value, ps[t - s1.nextTicket].age.value, Booked)
  {
    SavePassengersRows(s1, ref, ps, failing, 0);
    forall t | s1.nextTicket <= t < s2.nextTicket
      ensures s2.passengers[t] == Passenger(t, ref, ps[t - s1.nextTicket].name.value, ps[t - s1.nextTicket].age.value, Booked)
    {
      assert 0 + (t - s1.nextTicket) == t - s1.nextTicket;
    }
  }

  /** `createBooking` (reached through `saveBooking`). */
  function CreateBooking(s: State, b: BookingRequest, faults: ProcedureFaults): (r: Result<(State, BookingView)>)
    ensures !BookingValidation(b).Valid? ==> r == Err(Rejected(BookingValidation(b)))
    ensures BookingValidation(b).Valid? ==>
      var key := RequestedFlight(b);
      var seats := b.bookedSeats.value;
      && (key !in s.avail ==> r == Err(FlightNotAvailable))
      && (key in s.avail && s.avail[key].seats < seats ==> r == Err(NotEnoughSeats))
      && (key in s.avail && s.avail[key].seats >= seats && faults.bookingSave ==> r == Err(BookingInsertFailed))
      && (key in s.avail && s.avail[key].seats >= seats && !faults.bookingSave ==>
            (r.Err? <==> exists j :: 0 <= j < |b.passengers| && j in faults.passengerSave))
      && ((key in s.avail && s.avail[key].seats >= seats && !faults.bookingSave
           && exists j :: 0 <= j < |b.passengers| && j in faults.passengerSave) ==> r == Err(PassengerInsertFailed))
      && (r.Err? ==> !r.error.Rejected?)
    ensures r.Ok? ==>
      && BookingValidation(b).Valid?
      && s.avail[RequestedFlight(b)].seats >= b.bookedSeats.value
      && CreatedAsRequested(s, b, r.value.0, r.value.1)
  {
    var verdict := BookingValidation(b);
    if !verdict.Valid? then Err(Rejected(verdict))
    else CreateValidated(s, b.userId.value, RequestedFlight(b), b.bookedSeats.value, b.passengers, faults)
  }

  /** Number of Booked entries in a passenger list. */
  function BookedCount(ps: seq<Passenger>): nat
    decreases |ps|
  {
    if |ps| == 0 then 0 else (if ps[0].status == Booked then 1 else 0) + BookedCount(ps[1..])
  }

  /** Ticket numbers of the Booked entries in a passenger list. */
  function BookedTickets(ps: seq<Passenger>): set<int> {
    set i | 0 <= i < |ps| && ps[i].status == Booked :: ps[i].ticketNumber
  }

  lemma BookedTicketsCons(ps: seq<Passenger>)
    requires |ps| > 0
    ensures BookedTickets(ps) == (if ps[0].status == Booked then {ps[0].ticketNumber} else {}) + BookedTickets(ps[1..])
  {
    var tail := ps[1..];
    forall t | t in BookedTickets(ps)
      ensures t in (if ps[0].status == Booked then {ps[0].ticketNumber} else {}) + BookedTickets(tail)
    {
      var i :| 0 <= i < |ps| && ps[i].status == Booked && ps[i].ticketNumber == t;
      if i > 0 { assert tail[i - 1] == ps[i]; }
    }
    forall t | t in BookedTickets(tail)
      ensures t in BookedTickets(ps)
    {
      var i :| 0 <= i < |tail| && tail[i].status == Booked && tail[i].ticketNumber == t;
      assert ps[i + 1] == tail[i];
    }
  }

  /** With distinct ticket numbers, counting Booked entries counts Booked tickets. */
  lemma {:induction false} DistinctBookedCount(ps: seq<Passenger>)
    requires forall i, j :: 0 <= i < j < |ps| ==> ps[i].ticketNumber < ps[j].ticketNumber
    ensures BookedCount(ps) == |BookedTickets(ps)|
    decreases |ps|
  {
    if |ps| > 0 {
      BookedTicketsCons(ps);
      var tail := ps[1..];
      DistinctBookedCount(tail);
      forall i | 0 <= i < |tail|
        ensures tail[i].ticketNumber != ps[0].ticketNumber
      {
        assert tail[i] == ps[i + 1];
      }
    }
  }

  /** The passenger loop of the full cancel: walks the passenger list loaded
      before the loop and cancels, by ticket and reference, each entry whose
      loaded status is B, counting them. */
  function CancelListed(P: map<int, Passenger>, ref: int, ps: seq<Passenger>): (r: Result<(map<int, Passenger>, nat)>)
    decreases |ps|
    ensures r.Ok? <==> forall i :: 0 <= i < |ps| && ps[i].status == Booked ==> ps[i].ticketNumber in TicketsOf(P, ref)
    ensures r.Err? ==> r.error == TicketCancelFailed
    ensures r.Ok? ==> r.value.1 == BookedCount(ps)
    ensures r.Ok? ==> r.value.0.Keys == P.Keys
    ensures r.Ok? ==> forall t :: t in P ==>
      r.value.0[t] == if t in BookedTickets(ps) then P[t].(status := Cancelled) else P[t]
  {
    if |ps| == 0 then Ok((P, 0))
    else
      var tail := ps[1..];
      BookedTicketsCons(ps);
      assert forall i :: 1 <= i < |ps| ==> ps[i] == tail[i - 1];
      if ps[0].status == Booked then
        var row := CancelTicketRow(P, ps[0].ticketNumber, ref);
        if row.1 == 0 then Err(TicketCancelFailed)
        else
          assert TicketsOf(row.0, ref) == TicketsOf(P, ref);
          match CancelListed(row.0, ref, tail)
          case Err(e) => Err(e)
          case Ok(done) => Ok((done.0, done.1 + 1))
      else
        CancelListed(P, ref, tail)
  }

  /** `cancelBookingService`. The seat count in the request is only checked
      for presence. */
  function CancelBooking(s: State, referenceId: Nullable<int>, bookedSeats: Nullable<int>): (r: Result<(State, BookingView)>)
    ensures referenceId.Null? ==> r == Err(ReferenceMissing)
    ensures referenceId.NonNull? && bookedSeats.Null? ==> r == Err(BookedSeatsMissing)
    ensures referenceId.NonNull? && bookedSeats.NonNull? && referenceId.value !in s.bookings ==> r == Err(BookingNotFound)
    ensures (referenceId.NonNull? && bookedSeats.NonNull? && referenceId.value in s.bookings
             && s.bookings[referenceId.value].status == Cancelled) ==> r == Err(AlreadyCancelled)
    ensures r.Ok? ==>
      var ref := referenceId.value;
      && referenceId.NonNull? && bookedSeats.NonNull?
      && ref in s.bookings && s.bookings[ref].status == Booked
      && r.value.0.bookings == s.bookings[ref := s.bookings[ref].(status := Cancelled)]
      && r.value.0.nextReference == s.nextReference
      && r.value.0.nextTicket == s.nextTicket
      && ref in r.value.0.bookings
      && r.value.1 == ViewOf(r.value.0, ref)
  {
    if referenceId.Null? then Err(ReferenceMissing)
    else if bookedSeats.Null? then Err(BookedSeatsMissing)
    else
      var ref := referenceId.value;
      if ref !in s.bookings then Err(BookingNotFound)
      else if s.bookings[ref].status == Cancelled then Err(AlreadyCancelled)
      else
        var cancelled := CancelBookingRow(s.bookings, ref);
        if cancelled.1 == 0 then Err(BookingCancelFailed)
        else
          var s1 := s.(bookings := cancelled.0);
          match CancelListed(s1.passengers, ref, PassengersOf(s1, ref))
          case Err(e) => Err(e)
          case Ok(done) =>
            var n := done.1;
            var s2 := s1.(passengers := done.0);
            match ReturnSeats(s2.avail, s2.bookings[ref].flight, n)
            case Err(e) => Err(e)
            case Ok(avail) =>
              var s3 := s2.(avail := avail);
              Ok((s3, ViewOf(s3, ref)))
  }

  /** What a full cancel does to the passengers and seats of a booking:
      every passenger of the booking ends cancelled, nobody else changes,
      and the seats of its flight, whose row exists, rise by the number of
      passengers that were still booked (no update at all when there were
      none). */
  ghost predicate CancelledWholeBooking(s: State, ref: int, s': State)
    requires ref in s.bookings
  {
    var P := s.passengers;
    var n := |TicketsIn(P, ref, Booked)|;
    var key := s.bookings[ref].flight;
    && s'.passengers.Keys == P.Keys
    && (forall t :: t in P ==>
          s'.passengers[t] == if P[t].referenceId == ref then P[t].(status := Cancelled) else P[t])
    && key in s.avail
    && (n == 0 ==> s'.avail == s.avail)
    && (n > 0 ==> s'.avail == s.avail[key := s.avail[key].(seats := Wrap(s.avail[key].seats + n))])
  }

  /** In a well-formed store the passenger list of a booking, as loaded by
      the full cancel, shows the stored rows, each ticket once; its Booked
      entries are exactly the booking's booked tickets. */
  lemma ListingMatchesStore(s: State, ref: int)
    requires Wf(s)
    ensures var ps := PassengersOf(s, ref);
      && (forall i :: 0 <= i < |ps| ==> ps[i].ticketNumber in TicketsOf(s.passengers, ref))
      && BookedTickets(ps) == TicketsIn(s.passengers, ref, Booked)
      && BookedCount(ps) == |TicketsIn(s.passengers, ref, Booked)|
  {
    var P := s.passengers;
    var ps := PassengersOf(s, ref);
    var ts := TicketsBetween(P, ref, 0, s.nextTicket);
    PassengerListingComplete(s, ref);
    assert forall i :: 0 <= i < |ps| ==> ps[i] == P[ts[i]] && ps[i].ticketNumber == ts[i];
    forall t | t in TicketsIn(P, ref, Booked)
      ensures t in BookedTickets(ps)
    {
      assert t in TicketSet(ps);
      var i :| 0 <= i < |ps| && ps[i].ticketNumber == t;
      assert ps[i] == P[t];
    }
    DistinctBookedCount(ps);
  }

  /** In a well-formed store a full cancel of a booked booking fails only when
      the booking's flight row does not exist; when it
      succeeds it cancels every passenger and returns exactly the seats of
      those that were still booked. */
  lemma CancelBookingCascades(s: State, ref: int, bookedSeats: int)
    requires Wf(s)
    requires ref in s.bookings && s.bookings[ref].status == Booked
    ensures var r := CancelBooking(s, NonNull(ref), NonNull(bookedSeats));
      && (r.Ok? <==> s.bookings[ref].flight in s.avail)
      && (r.Err? ==> r.error == FlightNotAvailable)
      && (r.Ok? ==> CancelledWholeBooking(s, ref, r.value.0))
  {
    var s1 := s.(bookings := CancelBookingRow(s.bookings, ref).0);
    assert PassengersOf(s1, ref) == PassengersOf(s, ref);
    ListingCancelledWhole(s, ref);
    var c := CancelListed(s1.passengers, ref, PassengersOf(s1, ref));
    CancelBookingSteps(s, ref, bookedSeats);
    var returned := ReturnSeats(s.avail, s.bookings[ref].flight, c.value.1);
    if returned.Ok? {
      WholeBookingFromParts(s, ref, s1.(passengers := c.value.0, avail := returned.value));
    }
  }

  /** `CancelledWholeBooking` follows from its two parts: the passenger map
      the loop leaves and the seat return for the count it reports. */
  lemma WholeBookingFromParts(s: State, ref: int, s': State)
    requires ref in s.bookings
    requires s'.passengers.Keys == s.passengers.Keys
    requires forall t :: t in s.passengers ==>
      s'.passengers[t] == if s.passengers[t].referenceId == ref then s.passengers[t].(status := Cancelled) else s.passengers[t]
    requires ReturnSeats(s.avail, s.bookings[ref].flight, |TicketsIn(s.passengers, ref, Booked)|) == Ok(s'.avail)
    ensures CancelledWholeBooking(s, ref, s')
  {
  }

  /** The full cancel of a booked booking, once its passenger loop has
      succeeded, is the seat return applied to the store that loop left. */
  lemma CancelBookingSteps(s: State, ref: int, bookedSeats: int)
    requires ref in s.bookings && s.bookings[ref].status == Booked
    requires CancelListed(s.passengers, ref, PassengersOf(s, ref)).Ok?
    ensures var s1 := s.(bookings := CancelBookingRow(s.bookings, ref).0);
      var c := CancelListed(s1.passengers, ref, PassengersOf(s1, ref));
      var returned := ReturnSeats(s.avail, s.bookings[ref].flight, c.value.1);
      var s3 := s1.(passengers := c.value.0, avail := if returned.Ok? then returned.value else s.avail);
      && c.Ok?
      && CancelBooking(s, NonNull(ref), NonNull(bookedSeats))
           == if returned.Ok? then Ok((s3, ViewOf(s3, ref))) else Err(returned.error)
  {
    var s1 := s.(bookings := CancelBookingRow(s.bookings, ref).0);
    assert PassengersOf(s1, ref) == PassengersOf(s, ref);
  }

  /** In a well-formed store the passenger loop of the full cancel, run over
      the booking's listing, cancels every passenger of the booking and counts
      those that were still booked. */
  lemma ListingCancelledWhole(s: State, ref: int)
    requires Wf(s)
    ensures var c := CancelListed(s.passengers, ref, PassengersOf(s, ref));
      && c.Ok?
      && c.value.1 == |TicketsIn(s.passengers, ref, Booked)|
      && c.value.0.Keys == s.passengers.Keys
      && forall t :: t in s.passengers ==>
           c.value.0[t] == if s.passengers[t].referenceId == ref then s.passengers[t].(status := Cancelled) else s.passengers[t]
  {
    var P := s.passengers;
    var ps := PassengersOf(s, ref);
    ListingMatchesStore(s, ref);
    var c := CancelListed(P, ref, ps);
    assert c.Ok?;
    var P' := c.value.0;
    forall t | t in P
      ensures P'[t] == if P[t].referenceId == ref then P[t].(status := Cancelled) else P[t]
    {
      if P[t].referenceId == ref && P[t].status == Cancelled {
        assert P[t].(status := Cancelled) == P[t];
      }
    }
  }

  /** `getBookingForUserService`. Each listed booking is converted through
      its flight link, so one whose flight row is missing fails the call. */
  function GetBookingsForUser(s: State, userId: Nullable<int>): (r: Result<seq<Booking>>)
    ensures userId.Null? ==> r == Err(UserIdMissing)
    ensures userId.NonNull? ==> (r == Err(NoBookingsForUser) <==> BookingsOfUser(s, userId.value) == [])
    ensures userId.NonNull? ==>
      var bs := BookingsOfUser(s, userId.value);
      (r == Err(FlightNotAvailable) <==> |bs| > 0 && exists i :: 0 <= i < |bs| && bs[i].flight !in s.avail)
    ensures r.Ok? ==>
      && userId.NonNull? && r.value == BookingsOfUser(s, userId.value) && |r.value| > 0
      && forall i :: 0 <= i < |r.value| ==> r.value[i].flight in s.avail
  {
    if userId.Null? then Err(UserIdMissing)
    else
      var bookings := BookingsOfUser(s, userId.value);
      if |bookings| == 0 then Err(NoBookingsForUser)
      else if exists i :: 0 <= i < |bookings| && bookings[i].flight !in s.avail then Err(FlightNotAvailable)
      else Ok(bookings)
  }

  /** In a well-formed store the bookings listed for a user are exactly that
      user's bookings, in ascending reference order; for a present user id
      the call fails only when the user has no booking, or when one of
      them refers to a flight row that does not exist. */
  lemma UserBookingsListed(s: State, userId: int)
    requires Wf(s)
    ensures var r := GetBookingsForUser(s, NonNull(userId));
      && (r == Err(NoBookingsForUser) <==> forall k :: k in s.bookings ==> s.bookings[k].userId != userId)
      && (r == Err(FlightNotAvailable) <==>
            exists k :: k in s.bookings && s.bookings[k].userId == userId && s.bookings[k].flight !in s.avail)
      && (r.Ok? ==>
            && (forall i :: 0 <= i < |r.value| ==>
                  (r.value[i].userId == userId && r.value[i].referenceId in s.bookings
                   && s.bookings[r.value[i].referenceId] == r.value[i]))
            && (forall i, j :: 0 <= i < j < |r.value| ==> r.value[i].referenceId < r.value[j].referenceId)
            && (forall k :: k in s.bookings && s.bookings[k].userId == userId ==>
                  exists i :: 0 <= i < |r.value| && r.value[i].referenceId == k))
  {
    var bs := BookingsOfUser(s, userId);
    UserListingExact(s, userId);
    if exists k :: k in s.bookings && s.bookings[k].userId == userId && s.bookings[k].flight !in s.avail {
      var k :| k in s.bookings && s.bookings[k].userId == userId && s.bookings[k].flight !in s.avail;
      var i :| 0 <= i < |bs| && bs[i].referenceId == k;
      assert bs[i].flight !in s.avail;
    }
    if exists i :: 0 <= i < |bs| && bs[i].flight !in s.avail {
      var i :| 0 <= i < |bs| && bs[i].flight !in s.avail;
      assert s.bookings[bs[i].referenceId].flight !in s.avail;
    }
    if |bs| > 0 {
      assert s.bookings[bs[0].referenceId].userId == userId;
    }
  }

  /** The user listing of a well-formed store holds each of the user's
      stored bookings once, in ascending reference order, and nothing else. */
  lemma UserListingExact(s: State, userId: int)
    requires Wf(s)
    ensures var bs := BookingsOfUser(s, userId);
      && (forall i :: 0 <= i < |bs| ==>
            (bs[i].userId == userId && bs[i].referenceId in s.bookings
             && s.bookings[bs[i].referenceId] == bs[i]))
      && (forall i, j :: 0 <= i < j < |bs| ==> bs[i].referenceId < bs[j].referenceId)
      && (forall k :: k in s.bookings && s.bookings[k].userId == userId ==>
            exists i :: 0 <= i < |bs| && bs[i].referenceId == k)
  {
    var ks := ReferencesBetween(s.bookings, userId, 0, s.nextReference);
    var bs := BookingsOfUser(s, userId);
    assert forall i :: 0 <= i < |bs| ==> bs[i] == s.bookings[ks[i]] && bs[i].referenceId == ks[i];
    forall k | k in s.bookings && s.bookings[k].userId == userId
      ensures exists i :: 0 <= i < |bs| && bs[i].referenceId == k
    {
      assert k in ks;
      var i :| 0 <= i < |ks| && ks[i] == k;
      assert bs[i].referenceId == k;
    }
  }

  /** `getBookingByReferenceIdService`. The booking is converted through its
      flight link, so one whose flight row is missing fails the call. */
  function GetBookingByReference(s: State, referenceId: Nullable<int>): (r: Result<BookingView>)
    ensures referenceId.Null? ==> r == Err(ReferenceMissing)
    ensures referenceId.NonNull? ==>
      (r.Ok? <==> referenceId.value in s.bookings && s.bookings[referenceId.value].flight in s.avail)
    ensures referenceId.NonNull? && referenceId.value !in s.bookings ==> r == Err(BookingNotFound)
    ensures (referenceId.NonNull? && referenceId.value in s.bookings
             && s.bookings[referenceId.value].flight !in s.avail) ==> r == Err(FlightNotAvailable)
    ensures r.Ok? ==> r.value.booking == s.bookings[referenceId.value]
    ensures r.Ok? ==> forall i :: 0 <= i < |r.value.passengers| ==> r.value.passengers[i].referenceId == referenceId.value
  {
    if referenceId.Null? then Err(ReferenceMissing)
    else if referenceId.value !in s.bookings then Err(BookingNotFound)
    else if s.bookings[referenceId.value].flight !in s.avail then Err(FlightNotAvailable)
    else Ok(ViewOf(s, referenceId.value))
  }

  /** In a well-formed store a stored booking is found exactly when its
      flight row exists, and then comes with each of its passengers exactly
      once, in ascending ticket order. */
  lemma BookingViewComplete(s: State, ref: int)
    requires Wf(s)
    requires ref in s.bookings
    ensures var r := GetBookingByReference(s, NonNull(ref));
      && (r.Ok? <==> s.bookings[ref].flight in s.avail)
      && (r.Ok? ==> TicketSet(r.value.passengers) == TicketsOf(s.passengers, ref))
      && (r.Ok? ==> forall i, j :: 0 <= i < j < |r.value.passengers| ==>
           r.value.passengers[i].ticketNumber < r.value.passengers[j].ticketNumber)
  {
    PassengerListingComplete(s, ref);
  }
}

=== FILE: failures.dfy ===
/**
  The failures the services report. In the services every failure is an
  `AirlineServiceException` (a `RuntimeException`) thrown from inside a
  transactional method, so a failed call leaves the store as it was: a
  `Result` that is an `Err` carries no new state.
 */
module Failures {
  import Validation

  datatype ServiceError =
    | Rejected(verdict: Validation.Verdict)  // the request failed validation
    | UserIdMissing                         // "User id is missing..."
    | NoBookingsForUser                     // "There are no bookings for the given user..."
    | ReferenceMissing                      // "Booking reference id is missing..."
    | BookedSeatsMissing                    // "Booked seats is missing..."
    | BookingNotFound                       // no booking with that reference id
    | AlreadyCancelled                      // "Booking is already cancelled..."
    | NoPassengers                          // "There are no passengers for the given booking id..."
    | PassengerNotFound                     // no passenger with that ticket number
    | FlightNotAvailable                    // no availability row: the null row is dereferenced
    | NotEnoughSeats                        // fewer seats left than requested
    | BookingInsertFailed                   // booking_save reported "Insertion failed"
    | PassengerInsertFailed                 // passenger_save reported "Insertion failed"
    | BookingCancelFailed                   // the booking status update changed no row
    | TicketCancelFailed                    // the ticket status update changed no row
    | SeatUpdateFailed                      // the seat update changed no row

  datatype Result<+T> = Ok(value: T) | Err(error: ServiceError)
}

=== FILE: java_lang.dfy ===
/**
  The few Java semantics the airline services depend on: boxed values that
  may be null, 32-bit `int` arithmetic, `String.equalsIgnoreCase`, and the
  identity comparison `==` between two boxed `Integer` objects.
 */
module JavaLang {

  /** A Java reference (`Integer`, `String`, `Date`, ...) that may be null. */
  datatype Nullable<+T> = Null | NonNull(value: T)

  /** A `java.sql.Date`, identified by its day number. */
  datatype Date = Date(epochDay: int)

  const IntMin: int := -0x8000_0000
  const IntMax: int := 0x7fff_ffff
  const IntRange: int := 0x1_0000_0000

  /** The values of a Java `int` / unboxed `Integer`. */
  type Int32 = x: int | -0x8000_0000 <= x <= 0x7fff_ffff

  /** The 32-bit two's-complement value Java produces for an exact result `x`. */
  function Wrap(x: int): (r: Int32)
    ensures (x - r) % IntRange == 0
    ensures IntMin <= x <= IntMax ==> r == x
    ensures IntMax < x < IntMax + IntRange ==> r == x - IntRange
  {
    if IntMin <= x <= IntMax then x
    else
      var q := (x - IntMin) / IntRange;
      var r := (x - IntMin) % IntRange + IntMin;
      assert x - r == q * IntRange;
      r
  }

  /** Upper-case mapping of one character; only ASCII letters are folded. */
  function UpperCase(c: char): char {
    if 'a' <= c <= 'z' then (c as int - 32) as char else c
  }

  /** `a.equalsIgnoreCase(b)` for non-null `a` and `b`. */
  predicate EqualsIgnoreCase(a: string, b: string) {
    |a| == |b| && forall i :: 0 <= i < |a| ==> UpperCase(a[i]) == UpperCase(b[i])
  }

  /** Comparing against a one-letter upper-case code ignoring case accepts
      exactly that letter in either case. */
  lemma IgnoreCaseLetter(s: string, c: char)
    requires 'A' <= c <= 'Z'
    ensures EqualsIgnoreCase(s, [c]) <==> s == [c] || s == [(c as int + 32) as char]
  {
    if EqualsIgnoreCase(s, [c]) {
      assert UpperCase(s[0]) == c;
      if 'a' <= s[0] <= 'z' {
        assert s == [(c as int + 32) as char];
      } else {
        assert s == [c];
      }
    }
    if s == [(c as int + 32) as char] {
      assert UpperCase(s[0]) == c;
    }
  }

  /** The range `Integer.valueOf` serves from its cache of shared objects. */
  const CacheLow: int := -128
  const CacheHigh: int := 127

  /** `a == b` between two `Integer` objects boxed independently: the same
      object (and so `true`) only for equal values inside the cache. */
  predicate SameBoxedInteger(a: int, b: int) {
    a == b && CacheLow <= a <= CacheHigh
  }
}

=== FILE: lifecycle.dfy ===
/**
  Properties of the booking lifecycle that span several operations: the
  store stays well formed, cancelled rows never come back, the seats of a
  flight plus the tickets still held on it form a conserved ledger, and
  creating a booking then cancelling it (whole, or ticket by ticket) gives
  the flight its seats back.
 */
module Lifecycle {
  import opened JavaLang
  import opened Validation
  import opened Store
  import opened Failures
  import opened BookingService
  import opened PassengerService

  /** The tickets booked against flight `key`: booked passengers of bookings
      on that flight. */
  ghost function Held(s: State, key: FlightKey): set<int> {
    set t | t in s.passengers && s.passengers[t].status == Booked
            && s.passengers[t].referenceId in s.bookings
            && s.bookings[s.passengers[t].referenceId].flight == key
  }

  /** Nothing stored disappears, and nothing cancelled is booked again. */
  ghost predicate NeverRevives(s: State, s': State) {
    && (forall r :: r in s.bookings ==>
          r in s'.bookings && (s.bookings[r].status == Cancelled ==> s'.bookings[r].status == Cancelled))
    && (forall t :: t in s.passengers ==>
          t in s'.passengers && (s.passengers[t].status == Cancelled ==> s'.passengers[t].status == Cancelled))
    && s.nextReference <= s'.nextReference
    && s.nextTicket <= s'.nextTicket
  }

  lemma SubsetDifferenceSize(a: set<int>, x: set<int>)
    requires x <= a
    ensures |a - x| == |a| - |x|
  {
    assert a == (a - x) + x;
  }

  // ------------------------------------------------------------ create

  /** One new booking `ref` on `flight` and `k` new booked tickets under
      it, every existing row unchanged. */
  ghost predicate AddsBooking(s: State, s': State, ref: int, flight: FlightKey, k: nat) {
    && ref !in s.bookings && ref in s'.bookings && s'.bookings[ref].flight == flight
    && (forall r :: r in s.bookings ==> r in s'.bookings && s'.bookings[r] == s.bookings[r])
    && (forall t :: t in s.passengers ==>
          t in s'.passengers && s'.passengers[t] == s.passengers[t] && s.passengers[t].referenceId in s.bookings)
    && (forall t :: t in s'.passengers && t !in s.passengers ==>
          s'.passengers[t].referenceId == ref && s'.passengers[t].status == Booked)
    && |s'.passengers| == |s.passengers| + k
  }

  /** The shape of any transition a successful create makes on a
      well-formed store; the store stays well formed. */
  lemma CreatedShape(s: State, b: BookingRequest, s': State, v: BookingView)
    requires Wf(s)
    requires BookingValidation(b).Valid?
    requires CreatedAsRequested(s, b, s', v)
    ensures AddsBooking(s, s', s.nextReference, RequestedFlight(b), |b.passengers|)
    ensures Wf(s') && NeverRevives(s, s')
  {
    CreatedAdds(s, b, s', v);
    forall t | t in s'.passengers
      ensures 0 <= t < s'.nextTicket && s'.passengers[t].ticketNumber == t
      ensures s'.passengers[t].referenceId in s'.bookings
    {
    }
  }

  /** A successful create on a well-formed store adds one booking and one
      booked ticket per passenger under it. */
  lemma CreatedAdds(s: State, b: BookingRequest, s': State, v: BookingView)
    requires Wf(s)
    requires BookingValidation(b).Valid?
    requires CreatedAsRequested(s, b, s', v)
    ensures AddsBooking(s, s', s.nextReference, RequestedFlight(b), |b.passengers|)
  {
  }

  /** A successful create keeps the store well formed and revives nothing. */
  lemma CreatePreservesInvariants(s: State, b: BookingRequest, faults: ProcedureFaults)
    requires Wf(s)
    requires CreateBooking(s, b, faults).Ok?
    ensures Wf(CreateBooking(s, b, faults).value.0)
    ensures NeverRevives(s, CreateBooking(s, b, faults).value.0)
  {
    var r := CreateBooking(s, b, faults);
    CreatedShape(s, b, r.value.0, r.value.1);
  }

  /** Adding a booking on `flight` with new booked tickets adds exactly
      those tickets to that flight's ledger and leaves the others alone. */
  lemma HeldAfterAdd(s: State, s': State, ref: int, flight: FlightKey, added: set<int>, key: FlightKey)
    requires ref !in s.bookings && ref in s'.bookings && s'.bookings[ref].flight == flight
    requires forall r :: r in s.bookings ==> r in s'.bookings && s'.bookings[r] == s.bookings[r]
    requires forall t :: t in s'.passengers <==> t in s.passengers || t in added
    requires forall t :: t in s.passengers ==>
      t !in added && s'.passengers[t] == s.passengers[t] && s.passengers[t].referenceId in s.bookings
    requires forall t :: t in added ==> s'.passengers[t].referenceId == ref && s'.passengers[t].status == Booked
    ensures key == flight ==> Held(s', key) == Held(s, key) + added && Held(s, key) !! added
    ensures key != flight ==> Held(s', key) == Held(s, key)
  {
    forall t
      ensures t in Held(s', key) <==> t in Held(s, key) || (key == flight && t in added)
    {
      if t in s.passengers {
        assert s'.passengers[t] == s.passengers[t];
      }
    }
    if key == flight {
      assert Held(s', key) == Held(s, key) + added;
      forall t | t in Held(s, key) ensures t !in added { }
    } else {
      assert Held(s', key) == Held(s, key);
    }
  }

  /** Adding `k` booked tickets while taking `k` seats from the flight
      keeps every flight's ledger. */
  lemma LedgerAfterAdd(s: State, s': State, ref: int, flight: FlightKey, k: nat, key: FlightKey)
    requires AddsBooking(s, s', ref, flight, k)
    requires flight in s.avail && s.avail[flight].seats >= k
    requires s'.avail == s.avail[flight := s.avail[flight].(seats := s.avail[flight].seats - k)]
    requires key in s.avail
    ensures key in s'.avail && s'.avail[key].seats + |Held(s', key)| == s.avail[key].seats + |Held(s, key)|
  {
    NewTicketsCount(s, s', k);
    HeldAfterAdd(s, s', ref, flight, NewTickets(s, s'), key);
  }

  /** Tickets stored after a transition that were not stored before it. */
  ghost function NewTickets(s: State, s': State): set<int> {
    set t | t in s'.passengers && t !in s.passengers
  }

  lemma NewTicketsCount(s: State, s': State, k: nat)
    requires forall t :: t in s.passengers ==> t in s'.passengers
    requires |s'.passengers| == |s.passengers| + k
    ensures |NewTickets(s, s')| == k
  {
    var added := NewTickets(s, s');
    forall t ensures t in s'.passengers.Keys <==> t in s.passengers.Keys + added {
      if t in s.passengers { assert t in s'.passengers; }
    }
    assert s'.passengers.Keys == s.passengers.Keys + added;
    assert s.passengers.Keys !! added;
  }

  /** A create of a non-negative seat count takes exactly that many seats
      from the flight, without wrapping. */
  lemma CreateTakesSeats(s: State, b: BookingRequest, s': State, v: BookingView)
    requires BookingValidation(b).Valid?
    requires CreatedAsRequested(s, b, s', v)
    requires b.bookedSeats.value >= 0
    ensures var flight := RequestedFlight(b);
      && flight in s.avail && s.avail[flight].seats >= b.bookedSeats.value
      && s'.avail == s.avail[flight := s.avail[flight].(seats := s.avail[flight].seats - b.bookedSeats.value)]
  {
  }

  /** A successful create moves the requested seats from the flight to the
      new tickets: for every flight, seats plus held tickets is unchanged
      when the request books one seat per passenger. */
  lemma CreateKeepsLedger(s: State, b: BookingRequest, faults: ProcedureFaults, key: FlightKey)
    requires Wf(s)
    requires CreateBooking(s, b, faults).Ok?
    requires b.bookedSeats.value == |b.passengers|
    requires key in s.avail
    ensures var s' := CreateBooking(s, b, faults).value.0;
      key in s'.avail && s'.avail[key].seats + |Held(s', key)| == s.avail[key].seats + |Held(s, key)|
  {
    var r := CreateBooking(s, b, faults);
    LedgerAfterCreate(s, b, r.value.0, r.value.1, key);
  }

  /** The ledger of any transition a successful create makes. */
  lemma LedgerAfterCreate(s: State, b: BookingRequest, s': State, v: BookingView, key: FlightKey)
    requires Wf(s)
    requires BookingValidation(b).Valid?
    requires CreatedAsRequested(s, b, s', v)
    requires b.bookedSeats.value == |b.passengers|
    requires key in s.avail
    ensures key in s'.avail && s'.avail[key].seats + |Held(s', key)| == s.avail[key].seats + |Held(s, key)|
  {
    CreatedShape(s, b, s', v);
    CreateTakesSeats(s, b, s', v);
    LedgerAfterAdd(s, s', s.nextReference, RequestedFlight(b), |b.passengers|, key);
  }

  /** A successful create that books a non-negative number of seats leaves a
      non-negative count; a negative request, which validation lets through,
      raises the count or wraps it below zero. */
  lemma CreateSeatBounds(s: State, b: BookingRequest, faults: ProcedureFaults)
    requires CreateBooking(s, b, faults).Ok?
    ensures var key := RequestedFlight(b);
      var before := s.avail[key].seats;
      var after := CreateBooking(s, b, faults).value.0.avail[key].seats;
      && (b.bookedSeats.value >= 0 ==> 0 <= after == before - b.bookedSeats.value)
      && (b.bookedSeats.value < 0 ==> after > before || after < 0)
  {
    var s' := CreateBooking(s, b, faults).value.0;
    assert CreatedAsRequested(s, b, s', CreateBooking(s, b, faults).value.1);
  }

  /** The client's total never matters: two requests differing only in a
      (present) total cost have the same outcome. */
  lemma ClientTotalIgnored(s: State, b: BookingRequest, faults: ProcedureFaults, cost: int)
    requires b.totalCost.NonNull?
    ensures CreateBooking(s, b.(totalCost := NonNull(cost)), faults) == CreateBooking(s, b, faults)
  {
    var b' := b.(totalCost := NonNull(cost));
    SameVerdictForAnyTotal(b, cost);
    assert b'.passengers == b.passengers && b'.userId == b.userId && b'.bookedSeats == b.bookedSeats;
    assert b'.flightId == b.flightId && b'.flightDate == b.flightDate;
  }

  lemma SameVerdictForAnyTotal(b: BookingRequest, cost: int)
    requires b.totalCost.NonNull?
    ensures BookingValidation(b.(totalCost := NonNull(cost))) == BookingValidation(b)
  {
    var b' := b.(totalCost := NonNull(cost));
    assert BookingChecks(b') == BookingChecks(b);
    assert PassengersValidation(b'.passengers) == PassengersValidation(b.passengers);
  }

  // ------------------------------------------------------- full cancel

  /** A successful full cancel keeps the store well formed and revives nothing. */
  lemma CancelBookingPreservesInvariants(s: State, referenceId: Nullable<int>, bookedSeats: Nullable<int>)
    requires Wf(s)
    requires CancelBooking(s, referenceId, bookedSeats).Ok?
    ensures Wf(CancelBooking(s, referenceId, bookedSeats).value.0)
    ensures NeverRevives(s, CancelBooking(s, referenceId, bookedSeats).value.0)
  {
    CancelBookingCascades(s, referenceId.value, bookedSeats.value);
  }

  /** Flipping booked tickets of one booking to cancelled removes exactly
      those tickets from the ledger of that booking's flight. */
  lemma HeldAfterFlip(s: State, s': State, ref: int, flipped: set<int>, key: FlightKey)
    requires ref in s.bookings
    requires s'.bookings.Keys == s.bookings.Keys
    requires forall r :: r in s.bookings ==> s'.bookings[r].flight == s.bookings[r].flight
    requires s'.passengers.Keys == s.passengers.Keys
    requires forall t :: t in s.passengers ==>
      s'.passengers[t] == if t in flipped then s.passengers[t].(status := Cancelled) else s.passengers[t]
    requires forall t :: t in flipped ==>
      t in s.passengers && s.passengers[t].status == Booked && s.passengers[t].referenceId == ref
    ensures key == s.bookings[ref].flight ==> flipped <= Held(s, key) && |Held(s', key)| == |Held(s, key)| - |flipped|
    ensures key != s.bookings[ref].flight ==> Held(s', key) == Held(s, key)
  {
    var flight := s.bookings[ref].flight;
    forall t | t in flipped && key == flight
      ensures t in Held(s, key)
    {
    }
    forall t
      ensures t in Held(s', key) <==> t in Held(s, key) && !(key == flight && t in flipped)
    {
      if t in s.passengers {
        assert s'.passengers[t].referenceId == s.passengers[t].referenceId;
      }
    }
    if key == flight {
      assert Held(s', key) == Held(s, key) - flipped;
      SubsetDifferenceSize(Held(s, key), flipped);
    } else {
      assert Held(s', key) == Held(s, key);
    }
  }

  /** A successful full cancel returns to the flight exactly the seats its
      tickets held: the ledger is unchanged. */
  lemma CancelBookingKeepsLedger(s: State, referenceId: Nullable<int>, bookedSeats: Nullable<int>, key: FlightKey)
    requires Wf(s)
    requires CancelBooking(s, referenceId, bookedSeats).Ok?
    requires key in s.avail
    requires s.avail[key].seats + |Held(s, key)| <= IntMax
    ensures var s' := CancelBooking(s, referenceId, bookedSeats).value.0;
      key in s'.avail && s'.avail[key].seats + |Held(s', key)| == s.avail[key].seats + |Held(s, key)|
  {
    var s' := CancelBooking(s, referenceId, bookedSeats).value.0;
    var ref := referenceId.value;
    CancelBookingCascades(s, ref, bookedSeats.value);
    var P := s.passengers;
    var flipped := TicketsIn(P, ref, Booked);
    forall t | t in P
      ensures s'.passengers[t] == if t in flipped then P[t].(status := Cancelled) else P[t]
    {
      if P[t].referenceId == ref && P[t].status == Cancelled {
        assert P[t].(status := Cancelled) == P[t];
      }
    }
    HeldAfterFlip(s, s', ref, flipped, key);
  }

  // ---------------------------------------------------- partial cancel

  /** A successful partial cancel keeps the store well formed and revives nothing. */
  lemma CancelPassengersPreservesInvariants(s: State, c: CancelPassengersRequest)
    requires Wf(s)
    requires CancelPassengers(s, c).Ok?
    ensures Wf(CancelPassengers(s, c).value.0)
    ensures NeverRevives(s, CancelPassengers(s, c).value.0)
  {
    var r := CancelPassengers(s, c);
    assert CancelledListed(s, c.referenceId.value, TicketNumbers(c.ticketNumbers), r.value.0, r.value.1);
  }

  /** A successful partial cancel returns to the flight exactly the seats the
      newly cancelled tickets held: the ledger is unchanged. */
  lemma CancelPassengersKeepsLedger(s: State, c: CancelPassengersRequest, key: FlightKey)
    requires CancelPassengers(s, c).Ok?
    requires key in s.avail
    requires s.avail[key].seats + |Held(s, key)| <= IntMax
    ensures var s' := CancelPassengers(s, c).value.0;
      key in s'.avail && s'.avail[key].seats + |Held(s', key)| == s.avail[key].seats + |Held(s, key)|
  {
    var r := CancelPassengers(s, c);
    var ref := c.referenceId.value;
    var ts := TicketNumbers(c.ticketNumbers);
    assert CancelledListed(s, ref, ts, r.value.0, r.value.1);
    HeldAfterFlip(s, r.value.0, ref, Newly(s.passengers, ts), key);
  }

  // ------------------------------------------------------- round trips

  /** The booked tickets of a booking just created are exactly the tickets
      the create added. */
  lemma NewBookingTickets(s: State, s': State, ref: int, flight: FlightKey, k: nat)
    requires AddsBooking(s, s', ref, flight, k)
    ensures TicketsIn(s'.passengers, ref, Booked) == NewTickets(s, s')
    ensures |TicketsIn(s'.passengers, ref, Booked)| == k
  {
    forall t
      ensures t in TicketsIn(s'.passengers, ref, Booked) <==> t in NewTickets(s, s')
    {
      if t in s.passengers {
        assert s.passengers[t].referenceId in s.bookings;
      }
    }
    NewTicketsCount(s, s', k);
  }

  /** Creating a booking of one seat per passenger and then cancelling it
      whole gives every flight exactly its seats back and leaves the new
      booking and all its tickets cancelled. */
  lemma CreateThenCancelRestoresSeats(s: State, b: BookingRequest, faults: ProcedureFaults, seats: int)
    requires Wf(s)
    requires CreateBooking(s, b, faults).Ok?
    requires b.bookedSeats.value == |b.passengers|
    ensures var s1 := CreateBooking(s, b, faults).value.0;
      var r := CancelBooking(s1, NonNull(s.nextReference), NonNull(seats));
      && r.Ok?
      && r.value.0.avail == s.avail
      && r.value.0.bookings[s.nextReference].status == Cancelled
      && forall t :: t in s1.passengers && t !in s.passengers ==> r.value.0.passengers[t].status == Cancelled
  {
    var created := CreateBooking(s, b, faults).value;
    var s1 := created.0;
    var ref := s.nextReference;
    var flight := RequestedFlight(b);
    CreatedShape(s, b, s1, created.1);
    CreateTakesSeats(s, b, s1, created.1);
    assert |b.passengers| > 0 by { assert BookingChecks(b)[6]; }
    NewBookingTickets(s, s1, ref, flight, |b.passengers|);
    CancelJustAdded(s.avail, s1, ref, flight, |b.passengers|, seats);
  }

  /** Cancelling, whole, a booking with `k > 0` booked tickets on a flight
      from which `k` seats were taken undoes the seat change and cancels the
      booking and every ticket of it. */
  lemma CancelJustAdded(A: map<FlightKey, FlightAvail>, s1: State, ref: int, flight: FlightKey, k: nat, seats: int)
    requires Wf(s1) && ref in s1.bookings && s1.bookings[ref].status == Booked && s1.bookings[ref].flight == flight
    requires |TicketsIn(s1.passengers, ref, Booked)| == k > 0
    requires flight in A && A[flight].seats >= k
    requires s1.avail == A[flight := A[flight].(seats := A[flight].seats - k)]
    ensures var r := CancelBooking(s1, NonNull(ref), NonNull(seats));
      && r.Ok?
      && r.value.0.avail == A
      && r.value.0.bookings[ref].status == Cancelled
      && forall t :: t in s1.passengers && s1.passengers[t].referenceId == ref ==> r.value.0.passengers[t].status == Cancelled
  {
    CancelBookingCascades(s1, ref, seats);
    var s2 := CancelBooking(s1, NonNull(ref), NonNull(seats)).value.0;
    assert CancelledWholeBooking(s1, ref, s2);
    SeatsRestored(A, s1.avail, s2.avail, flight, k);
  }

  /** The ticket list of a partial-cancel request naming `k` consecutive
      ticket numbers from `lo`. */
  function TicketList(lo: int, k: nat): seq<Nullable<int>> {
    seq(k, i => NonNull(lo + i))
  }

  /** Creating a booking of one seat per passenger and then cancelling its
      tickets in one request gives the flight its seats back and
      cascades the booking to cancelled, whatever the number of seats. */
  lemma CreateThenCancelTicketsRestoresSeats(s: State, b: BookingRequest, faults: ProcedureFaults)
    requires Wf(s)
    requires CreateBooking(s, b, faults).Ok?
    requires b.bookedSeats.value == |b.passengers|
    ensures var s1 := CreateBooking(s, b, faults).value.0;
      var c := CancelPassengersRequest(NonNull(s.nextReference), TicketList(s.nextTicket, |b.passengers|));
      var r := CancelPassengers(s1, c);
      && r.Ok?
      && r.value.0.avail == s.avail
      && r.value.0.bookings[s.nextReference].status == Cancelled
  {
    var created := CreateBooking(s, b, faults).value;
    CancelTicketsAfterCreate(s, b, created.0, created.1);
  }

  /** The same round trip for any transition a successful create makes. */
  lemma CancelTicketsAfterCreate(s: State, b: BookingRequest, s1: State, v: BookingView)
    requires Wf(s)
    requires BookingValidation(b).Valid?
    requires CreatedAsRequested(s, b, s1, v)
    requires b.bookedSeats.value == |b.passengers|
    ensures var c := CancelPassengersRequest(NonNull(s.nextReference), TicketList(s.nextTicket, |b.passengers|));
      var r := CancelPassengers(s1, c);
      && r.Ok?
      && r.value.0.avail == s.avail
      && r.value.0.bookings[s.nextReference].status == Cancelled
  {
    CreatedTickets(s, b, s1, v);
    CancelTicketsAfterAdd(s, s1, s.nextReference, RequestedFlight(b), |b.passengers|);
  }

  /** What a successful create of one seat per passenger hands to a later
      cancel: the new booking is booked with `|passengers| > 0` seats taken
      from its flight, and its tickets are the next ticket numbers in order. */
  lemma CreatedTickets(s: State, b: BookingRequest, s1: State, v: BookingView)
    requires Wf(s)
    requires BookingValidation(b).Valid?
    requires CreatedAsRequested(s, b, s1, v)
    requires b.bookedSeats.value == |b.passengers|
    ensures AddsBooking(s, s1, s.nextReference, RequestedFlight(b), |b.passengers|)
    ensures TicketsFromGenerator(s.passengers, s.nextTicket)
    ensures |b.passengers| > 0
    ensures forall t :: t in s1.passengers <==> t in s.passengers || s.nextTicket <= t < s.nextTicket + |b.passengers|
    ensures s1.bookings[s.nextReference].status == Booked && s1.bookings[s.nextReference].bookedSeats == |b.passengers|
    ensures var flight := RequestedFlight(b);
      && flight in s.avail && s.avail[flight].seats >= |b.passengers|
      && s1.avail == s.avail[flight := s.avail[flight].(seats := s.avail[flight].seats - |b.passengers|)]
  {
    CreatedAdds(s, b, s1, v);
    CreateTakesSeats(s, b, s1, v);
    assert |b.passengers| > 0 by { assert BookingChecks(b)[6]; }
    assert AddsPassengers(s.passengers, s.nextTicket, s1.passengers, s1.nextTicket, s.nextReference, b.passengers);
  }

  /** Cancelling, by one partial-cancel request, all the tickets just added
      for a booking of one seat per ticket undoes the seat change and
      cascades the booking to cancelled. */
  lemma CancelTicketsAfterAdd(s: State, s1: State, ref: int, flight: FlightKey, k: nat)
    requires TicketsFromGenerator(s.passengers, s.nextTicket)
    requires AddsBooking(s, s1, ref, flight, k) && k > 0
    requires forall t :: t in s1.passengers <==> t in s.passengers || s.nextTicket <= t < s.nextTicket + k
    requires s1.bookings[ref].status == Booked && s1.bookings[ref].bookedSeats == k
    requires flight in s.avail && s.avail[flight].seats >= k
    requires s1.avail == s.avail[flight := s.avail[flight].(seats := s.avail[flight].seats - k)]
    ensures var r := CancelPassengers(s1, CancelPassengersRequest(NonNull(ref), TicketList(s.nextTicket, k)));
      && r.Ok?
      && r.value.0.avail == s.avail
      && r.value.0.bookings[ref].status == Cancelled
  {
    var c := CancelPassengersRequest(NonNull(ref), TicketList(s.nextTicket, k));
    var ts := TicketNumbers(c.ticketNumbers);
    NewBookingTickets(s, s1, ref, flight, k);
    ListedNewTickets(s, s1, ref, flight, k, ts);
    CancelTicketsOfNew(s.avail, s1, ref, flight, k, c);
  }

  /** Listing, in order, the ticket numbers a create handed out names every
      ticket of the new booking, each still booked. */
  lemma ListedNewTickets(s: State, s1: State, ref: int, flight: FlightKey, k: nat, ts: seq<int>)
    requires AddsBooking(s, s1, ref, flight, k)
    requires forall t :: t in s.passengers ==> t < s.nextTicket
    requires forall t :: t in s1.passengers <==> t in s.passengers || s.nextTicket <= t < s.nextTicket + k
    requires |ts| == k && forall i :: 0 <= i < k ==> ts[i] == s.nextTicket + i
    ensures Cancellable(s1.passengers, ref, ts)
    ensures Newly(s1.passengers, ts) == TicketsIn(s1.passengers, ref, Booked)
    ensures TicketsIn(s1.passengers, ref, Cancelled) == {}
  {
    var P1 := s1.passengers;
    forall i | 0 <= i < |ts|
      ensures ts[i] in P1 && P1[ts[i]].referenceId == ref && P1[ts[i]].status == Booked
    {
      assert ts[i] !in s.passengers;
    }
    forall t | t in TicketsIn(P1, ref, Booked)
      ensures t in Newly(P1, ts)
    {
      assert t !in s.passengers;
      assert ts[t - s.nextTicket] == t;
    }
    forall t | t in P1 && P1[t].referenceId == ref
      ensures P1[t].status == Booked
    {
      assert t !in s.passengers;
    }
  }

  /** A partial cancel that lists every ticket of a booking whose seat count
      is its number of tickets, none cancelled before, cancels the booking
      and returns all its seats. */
  lemma CancelTicketsOfNew(A: map<FlightKey, FlightAvail>, s1: State, ref: int, flight: FlightKey, k: nat,
                           c: CancelPassengersRequest)
    requires ref in s1.bookings && s1.bookings[ref].status == Booked
    requires s1.bookings[ref].flight == flight && s1.bookings[ref].bookedSeats == k
    requires c.referenceId == NonNull(ref) && forall i :: 0 <= i < |c.ticketNumbers| ==> c.ticketNumbers[i].NonNull?
    requires Cancellable(s1.passengers, ref, TicketNumbers(c.ticketNumbers))
    requires Newly(s1.passengers, TicketNumbers(c.ticketNumbers)) == TicketsIn(s1.passengers, ref, Booked)
    requires TicketsIn(s1.passengers, ref, Cancelled) == {}
    requires |TicketsIn(s1.passengers, ref, Booked)| == k > 0
    requires flight in A && A[flight].seats >= k
    requires s1.avail == A[flight := A[flight].(seats := A[flight].seats - k)]
    ensures var r := CancelPassengers(s1, c);
      && r.Ok?
      && r.value.0.avail == A
      && r.value.0.bookings[ref].status == Cancelled
  {
    var ts := TicketNumbers(c.ticketNumbers);
    var done := CancelTickets(s1.passengers, ref, ts).value;
    CancelledGrowth(s1.passengers, done.0, ref, TicketsIn(s1.passengers, ref, Booked));
    assert CascadeDue(s1.bookings[ref], CancelledTicketsCount(done.0, ref));
    var r := CancelPassengers(s1, c);
    assert CancelPassengerValidation(c).Valid?;
    assert r.Ok?;
    assert CancelledListed(s1, ref, ts, r.value.0, r.value.1);
    SeatsRestored(A, s1.avail, r.value.0.avail, flight, k);
  }

  /** Taking `k` seats from a flight and then returning `k` (as a Java int)
      restores the availability rows. */
  lemma SeatsRestored(A: map<FlightKey, FlightAvail>, A1: map<FlightKey, FlightAvail>, A2: map<FlightKey, FlightAvail>,
                      flight: FlightKey, k: nat)
    requires flight in A && A[flight].seats >= k
    requires A1 == A[flight := A[flight].(seats := A[flight].seats - k)]
    requires A2 == A1[flight := A1[flight].(seats := Wrap(A1[flight].seats + k))]
    ensures A2 == A
  {
    assert Wrap(A1[flight].seats + k) == A[flight].seats;
    assert A1[flight].(seats := A[flight].seats) == A[flight];
  }
}

=== FILE: passenger_service.dfy ===
/**
  Partial cancellation and the passenger listing (`PassengerService`).
  Cancelling a list of tickets flips the booked ones to cancelled, returns
  their seats to the flight, and promotes the booking to cancelled once the
  number of its cancelled tickets reaches its seat count.
 */
module PassengerService {
  import opened JavaLang
  import opened Validation
  import opened Store
  import opened Failures

  function TicketNumbers(ts: seq<Nullable<int>>): (r: seq<int>)
    requires forall i :: 0 <= i < |ts| ==> ts[i].NonNull?
  {
    seq(|ts|, i requires 0 <= i < |ts| => ts[i].value)
  }

  /** The listed tickets that are stored and still booked: the ones a
      successful call cancels. */
  function Newly(P: map<int, Passenger>, ts: seq<int>): set<int> {
    set t | t in ts && t in P && P[t].status == Booked
  }

  /** Every listed ticket is stored, and the booked ones belong to `ref`. */
  predicate Cancellable(P: map<int, Passenger>, ref: int, ts: seq<int>) {
    forall i :: 0 <= i < |ts| ==> ts[i] in P && (P[ts[i]].status == Booked ==> P[ts[i]].referenceId == ref)
  }

  lemma NewlyAfterCancel(P: map<int, Passenger>, ref: int, ts: seq<int>)
    requires |ts| > 0 && ts[0] in P && P[ts[0]].status == Booked
    ensures var P1 := P[ts[0] := P[ts[0]].(status := Cancelled)];
      && Newly(P, ts) == {ts[0]} + Newly(P1, ts[1..])
      && ts[0] !in Newly(P1, ts[1..])
      && (Cancellable(P, ref, ts) <==> P[ts[0]].referenceId == ref && Cancellable(P1, ref, ts[1..]))
  {
    var P1 := P[ts[0] := P[ts[0]].(status := Cancelled)];
    var tail := ts[1..];
    assert forall i :: 1 <= i < |ts| ==> ts[i] == tail[i - 1];
    assert forall t :: t in ts <==> t == ts[0] || t in tail;
    if P[ts[0]].referenceId == ref && Cancellable(P1, ref, tail) {
      forall i | 0 <= i < |ts|
        ensures ts[i] in P && (P[ts[i]].status == Booked ==> P[ts[i]].referenceId == ref)
      {
        if i > 0 && ts[i] != ts[0] {
          assert tail[i - 1] == ts[i];
        }
      }
    }
  }

  lemma NewlySkip(P: map<int, Passenger>, ref: int, ts: seq<int>)
    requires |ts| > 0 && ts[0] in P && P[ts[0]].status == Cancelled
    ensures Newly(P, ts) == Newly(P, ts[1..])
    ensures Cancellable(P, ref, ts) <==> Cancellable(P, ref, ts[1..])
  {
    var tail := ts[1..];
    assert forall i :: 1 <= i < |ts| ==> ts[i] == tail[i - 1];
    assert forall t :: t in ts <==> t == ts[0] || t in tail;
    if Cancellable(P, ref, tail) {
      forall i | 0 <= i < |ts|
        ensures ts[i] in P && (P[ts[i]].status == Booked ==> P[ts[i]].referenceId == ref)
      {
        if i > 0 { assert tail[i - 1] == ts[i]; }
      }
    }
  }

  /** The ticket loop of the partial cancel: looks each listed ticket up,
      cancels it by ticket and reference when it is still booked, skips it
      when it is already cancelled, and counts the tickets cancelled. */
  function CancelTickets(P: map<int, Passenger>, ref: int, ts: seq<int>): (r: Result<(map<int, Passenger>, nat)>)
    decreases |ts|
    ensures r.Ok? <==> Cancellable(P, ref, ts)
    ensures r.Err? ==> r.error == PassengerNotFound || r.error == TicketCancelFailed
    ensures r.Ok? ==> r.value.0.Keys == P.Keys
    ensures r.Ok? ==> forall t :: t in P ==>
      r.value.0[t] == if t in Newly(P, ts) then P[t].(status := Cancelled) else P[t]
    ensures r.Ok? ==> r.value.1 == |Newly(P, ts)|
  {
    if |ts| == 0 then Ok((P, 0))
    else
      var t := ts[0];
      if t !in P then Err(PassengerNotFound)
      else if P[t].status == Booked then
        var row := CancelTicketRow(P, t, ref);
        if row.1 == 0 then Err(TicketCancelFailed)
        else
          NewlyAfterCancel(P, ref, ts);
          match CancelTickets(row.0, ref, ts[1..])
          case Err(e) => Err(e)
          case Ok(done) => Ok((done.0, done.1 + 1))
      else
        NewlySkip(P, ref, ts);
        CancelTickets(P, ref, ts[1..])
  }

  /** The cascade test: the booking's seat count equals its number of
      cancelled tickets. Compared as values; see `SameBoxedInteger` for the
      comparison as the source writes it. */
  predicate CascadeDue(booking: Booking, cancelledCount: nat) {
    booking.bookedSeats == cancelledCount
  }

  /** The cascade test as the source writes it: `==` between the boxed seat
      count of the booking and the boxed count returned by the repository. */
  predicate CascadeAsWritten(booking: Booking, cancelledCount: nat) {
    SameBoxedInteger(booking.bookedSeats, cancelledCount)
  }

  /** The identity test agrees with `CascadeDue` for small bookings and
      misses every booking of more than 127 seats. */
  lemma CascadeAsWrittenAgreesOnlyBelowCache(booking: Booking, cancelledCount: nat)
    ensures CascadeAsWritten(booking, cancelledCount) <==>
      CascadeDue(booking, cancelledCount) && booking.bookedSeats <= CacheHigh
  {
  }

  /** A concrete booking of 200 seats whose 200 tickets are all cancelled:
      the corrected test cascades, the test as written does not. */
  lemma LargeBookingNeverCascadesAsWritten()
    ensures var booking := Booking(1, 7, FlightKey("AI101", Date(0)), Booked, 200, 0);
      CascadeDue(booking, 200) && !CascadeAsWritten(booking, 200)
  {
  }

  /** Everything a successful partial cancel does, stated against the store
      before it. */
  ghost predicate CancelledListed(s: State, ref: int, ts: seq<int>, s': State, v: BookingView)
    requires ref in s.bookings
  {
    var P := s.passengers;
    var newly := Newly(P, ts);
    var n := |newly|;
    var booking := s.bookings[ref];
    var key := booking.flight;
    // exactly the listed tickets still booked are cancelled, all of them this booking's
    && s'.passengers.Keys == P.Keys
    && (forall t :: t in P ==> s'.passengers[t] == if t in newly then P[t].(status := Cancelled) else P[t])
    && (forall t :: t in newly ==> P[t].referenceId == ref)
    // the booking is promoted once all its seats are cancelled; otherwise it is untouched
    && s'.bookings == s.bookings[ref := booking.(status :=
         if CascadeDue(booking, CancelledTicketsCount(s'.passengers, ref)) then Cancelled else booking.status)]
    // the booking's flight row exists; only the seats freed by this call are returned to it
    && key in s.avail
    && (n == 0 ==> s'.avail == s.avail)
    && (n > 0 ==> s'.avail == s.avail[key := s.avail[key].(seats := Wrap(s.avail[key].seats + n))])
    && s'.nextReference == s.nextReference
    && s'.nextTicket == s.nextTicket
    && ref in s'.bookings
    && v == ViewOf(s', ref)
  }

  /** `cancelPassengerByTicketService`. */
  function CancelPassengers(s: State, c: CancelPassengersRequest): (r: Result<(State, BookingView)>)
    ensures !CancelPassengerValidation(c).Valid? ==> r == Err(Rejected(CancelPassengerValidation(c)))
    ensures (exists i :: 0 <= i < |c.ticketNumbers| && c.ticketNumbers[i].NonNull? && c.ticketNumbers[i].value !in s.passengers) ==> r.Err?
    ensures CancelPassengerValidation(c).Valid? && c.referenceId.value !in s.bookings ==> r.Err?
    ensures CancelPassengerValidation(c).Valid? ==>
      var ref := c.referenceId.value;
      var ts := TicketNumbers(c.ticketNumbers);
      (r.Ok? <==>
        && Cancellable(s.passengers, ref, ts)
        && ref in s.bookings
        && s.bookings[ref].flight in s.avail)
    ensures r.Ok? ==>
      && CancelPassengerValidation(c).Valid?
      && c.referenceId.value in s.bookings
      && CancelledListed(s, c.referenceId.value, TicketNumbers(c.ticketNumbers), r.value.0, r.value.1)
  {
    var verdict := CancelPassengerValidation(c);
    if !verdict.Valid? then Err(Rejected(verdict))
    else
      var ts := TicketNumbers(c.ticketNumbers);
      assert forall i :: 0 <= i < |c.ticketNumbers| ==> ts[i] == c.ticketNumbers[i].value;
      CancelValidated(s, c.referenceId.value, ts)
  }

  /** The partial cancel once the request has passed validation: the ticket
      loop, the cascade to the booking, the seat return and the reload. */
  function CancelValidated(s: State, ref: int, ts: seq<int>): (r: Result<(State, BookingView)>)
    ensures (exists i :: 0 <= i < |ts| && ts[i] !in s.passengers) ==> r.Err?
    ensures ref !in s.bookings ==> r.Err?
    ensures r.Ok? <==>
      && Cancellable(s.passengers, ref, ts)
      && ref in s.bookings
      && s.bookings[ref].flight in s.avail
    ensures r.Ok? ==> ref in s.bookings && CancelledListed(s, ref, ts, r.value.0, r.value.1)
  {
    match CancelTickets(s.passengers, ref, ts)
    case Err(e) => Err(e)
    case Ok(done) =>
      var passengers := done.0;
      var n := done.1;
      if ref !in s.bookings then Err(BookingNotFound)
      else
        var booking := s.bookings[ref];
        var cascade :=
          if CascadeDue(booking, CancelledTicketsCount(passengers, ref)) then CancelBookingRow(s.bookings, ref)
          else (s.bookings, 1);
        if cascade.1 == 0 then Err(BookingCancelFailed)
        else
          var s1 := s.(passengers := passengers, bookings := cascade.0);
          match ReturnSeats(s1.avail, booking.flight, n)
          case Err(e) => Err(e)
          case Ok(avail) =>
            var s2 := s1.(avail := avail);
            Ok((s2, ViewOf(s2, ref)))
  }

  /** The seats a partial cancel returns are exactly the growth of the
      booking's cancelled-ticket count, never the cumulative count. */
  lemma SeatsFollowNewCancellations(s: State, c: CancelPassengersRequest)
    requires CancelPassengers(s, c).Ok?
    ensures var s' := CancelPassengers(s, c).value.0;
      var ref := c.referenceId.value;
      var n := |Newly(s.passengers, TicketNumbers(c.ticketNumbers))|;
      && CancelledTicketsCount(s'.passengers, ref) == CancelledTicketsCount(s.passengers, ref) + n
      && (n == 0 ==> s'.avail == s.avail)
      && (n > 0 ==> s'.avail[s.bookings[ref].flight].seats == Wrap(s.avail[s.bookings[ref].flight].seats + n))
  {
    var s' := CancelPassengers(s, c).value.0;
    CancelledGrowth(s.passengers, s'.passengers, c.referenceId.value, Newly(s.passengers, TicketNumbers(c.ticketNumbers)));
  }

  /** Cancelling a set of booked tickets of one booking grows that booking's
      cancelled tickets by exactly that set. */
  lemma CancelledGrowth(P: map<int, Passenger>, P': map<int, Passenger>, ref: int, newly: set<int>)
    requires P'.Keys == P.Keys
    requires forall t :: t in P ==> P'[t] == if t in newly then P[t].(status := Cancelled) else P[t]
    requires forall t :: t in newly ==> t in P && P[t].status == Booked && P[t].referenceId == ref
    ensures CancelledTicketsCount(P', ref) == CancelledTicketsCount(P, ref) + |newly|
  {
    var before := TicketsIn(P, ref, Cancelled);
    var after := TicketsIn(P', ref, Cancelled);
    forall t ensures t in after <==> t in before || t in newly {
      if t in newly {
        assert t in P && P'[t].status == Cancelled && P'[t].referenceId == ref;
      } else if t in P {
        assert P'[t] == P[t];
      }
    }
    assert after == before + newly;
    forall t | t in newly ensures t !in before {
      assert P[t].status == Booked;
    }
    assert before !! newly;
  }

  /** Repeating a successful partial cancel changes nothing and returns the
      same booking view. */
  lemma CancelPassengersIdempotent(s: State, c: CancelPassengersRequest)
    requires CancelPassengers(s, c).Ok?
    ensures CancelPassengers(CancelPassengers(s, c).value.0, c) == CancelPassengers(s, c)
  {
    var r := CancelPassengers(s, c);
    var s' := r.value.0;
    var ref := c.referenceId.value;
    var ts := TicketNumbers(c.ticketNumbers);
    var P' := s'.passengers;
    assert Cancellable(s.passengers, ref, ts);
    assert forall i :: 0 <= i < |ts| ==> ts[i] in P' && P'[ts[i]].status == Cancelled by {
      forall i | 0 <= i < |ts|
        ensures ts[i] in P' && P'[ts[i]].status == Cancelled
      {
        assert ts[i] in s.passengers;
      }
    }
    assert Newly(P', ts) == {};
    var again := CancelTickets(P', ref, ts);
    assert again.Ok? && again.value.0 == P' && again.value.1 == 0;
    var booking := s.bookings[ref];
    var booking' := s'.bookings[ref];
    if CascadeDue(booking', CancelledTicketsCount(P', ref)) {
      assert booking'.bookedSeats == booking.bookedSeats;
      assert booking'.status == Cancelled;
      assert booking'.(status := Cancelled) == booking';
      assert s'.bookings[ref := booking'.(status := Cancelled)] == s'.bookings;
    }
    assert s'.(passengers := P', bookings := s'.bookings) == s';
  }

  /** `getBookingPassengersService`. */
  function GetBookingPassengers(s: State, referenceId: Nullable<int>): (r: Result<seq<Passenger>>)
    ensures referenceId.Null? ==> r == Err(ReferenceMissing)
    ensures referenceId.NonNull? ==> (r == Err(NoPassengers) <==> PassengersOf(s, referenceId.value) == [])
    ensures r.Ok? ==> referenceId.NonNull? && |r.value| > 0
    ensures r.Ok? ==> forall i :: 0 <= i < |r.value| ==> r.value[i].referenceId == referenceId.value
  {
    if referenceId.Null? then Err(ReferenceMissing)
    else
      var passengers := PassengersOf(s, referenceId.value);
      if |passengers| == 0 then Err(NoPassengers) else Ok(passengers)
  }

  /** In a well-formed store the listing fails exactly when the reference is
      null or the booking has no passengers, and otherwise lists each of its
      passengers once in ticket order. */
  lemma PassengerListingOutcome(s: State, ref: int)
    requires Wf(s)
    ensures var r := GetBookingPassengers(s, NonNull(ref));
      && (r.Err? <==> TicketsOf(s.passengers, ref) == {})
      && (r.Ok? ==> TicketSet(r.value) == TicketsOf(s.passengers, ref))
      && (r.Ok? ==> forall i, j :: 0 <= i < j < |r.value| ==> r.value[i].ticketNumber < r.value[j].ticketNumber)
  {
    PassengerListingComplete(s, ref);
    var ps := PassengersOf(s, ref);
    if |ps| > 0 {
      assert ps[0].ticketNumber in TicketSet(ps);
    }
  }
}

=== FILE: store.dfy ===
/**
  The persistent state the services read and write: flight availability rows
  keyed by (flight, date), bookings keyed by reference id, and passengers
  keyed by ticket number, together with the repository operations the
  services call. The native SQL behind the repositories is not part of this
  model; each operation is the map update chosen from its name, parameters
  and documentation, and the assumptions this takes are listed in the
  README.
 */
module Store {
  import opened JavaLang
  import opened Failures

  /** Stored booking and passenger status: "B" or "C". */
  datatype Status = Booked | Cancelled

  datatype FlightKey = FlightKey(flightId: string, date: Date)

  /** A flight availability row: seats left and price per seat (minor units). */
  datatype FlightAvail = FlightAvail(seats: Int32, cost: int)

  datatype Booking = Booking(
    referenceId: int,
    userId: int,
    flight: FlightKey,
    status: Status,
    bookedSeats: Int32,
    totalCost: int)

  datatype Passenger = Passenger(
    ticketNumber: int,
    referenceId: int,
    name: string,
    age: int,
    status: Status)

  /** The store. `nextReference` and `nextTicket` stand for the id generators
      of the `booking_save` and `passenger_save` procedures. */
  datatype State = State(
    avail: map<FlightKey, FlightAvail>,
    bookings: map<int, Booking>,
    passengers: map<int, Passenger>,
    nextReference: nat,
    nextTicket: nat)

  /** A booking together with its passenger list, as the services return it. */
  datatype BookingView = BookingView(booking: Booking, passengers: seq<Passenger>)

  /** Keys agree with the rows' own ids, ids come from the generators, and
      every passenger belongs to a stored booking. */
  ghost predicate Wf(s: State) {
    && (forall r :: r in s.bookings ==> 0 <= r < s.nextReference && s.bookings[r].referenceId == r)
    && (forall t :: t in s.passengers ==>
          && 0 <= t < s.nextTicket
          && s.passengers[t].ticketNumber == t
          && s.passengers[t].referenceId in s.bookings)
  }

  /** Every stored ticket number was handed out by the generator. */
  ghost predicate TicketsFromGenerator(P: map<int, Passenger>, nextTicket: int) {
    forall t :: t in P ==> t < nextTicket
  }

  // ---------------------------------------------------------------- queries

  /** Tickets of booking `ref`. */
  function TicketsOf(P: map<int, Passenger>, ref: int): set<int> {
    set t | t in P && P[t].referenceId == ref
  }

  /** Tickets of booking `ref` in status `st`. */
  function TicketsIn(P: map<int, Passenger>, ref: int, st: Status): set<int> {
    set t | t in P && P[t].referenceId == ref && P[t].status == st
  }

  /** `getCancelledTicketsCount`: the cancelled tickets of a booking. */
  function CancelledTicketsCount(P: map<int, Passenger>, ref: int): nat {
    |TicketsIn(P, ref, Cancelled)|
  }

  /** Tickets of booking `ref` numbered in [lo, hi), ascending. */
  function TicketsBetween(P: map<int, Passenger>, ref: int, lo: int, hi: int): (r: seq<int>)
    decreases hi - lo
    ensures forall i, j :: 0 <= i < j < |r| ==> r[i] < r[j]
    ensures forall i :: 0 <= i < |r| ==> lo <= r[i] < hi && r[i] in TicketsOf(P, ref)
    ensures forall t :: t in TicketsOf(P, ref) && lo <= t < hi ==> t in r
  {
    if hi <= lo then []
    else
      var rest := TicketsBetween(P, ref, lo + 1, hi);
      if lo in P && P[lo].referenceId == ref then [lo] + rest else rest
  }

  /** `getBookingPassengersRepository`: the passengers of a booking in ticket order. */
  function PassengersOf(s: State, ref: int): (r: seq<Passenger>)
    ensures |r| == |TicketsBetween(s.passengers, ref, 0, s.nextTicket)|
    ensures forall i :: 0 <= i < |r| ==>
      && TicketsBetween(s.passengers, ref, 0, s.nextTicket)[i] in s.passengers
      && r[i] == s.passengers[TicketsBetween(s.passengers, ref, 0, s.nextTicket)[i]]
  {
    var ts := TicketsBetween(s.passengers, ref, 0, s.nextTicket);
    seq(|ts|, i requires 0 <= i < |ts| => s.passengers[ts[i]])
  }

  /** Ticket numbers of a passenger list. */
  function TicketSet(ps: seq<Passenger>): set<int> {
    set i | 0 <= i < |ps| :: ps[i].ticketNumber
  }

  /** In a well-formed store the passenger listing of a booking holds every
      one of its passengers exactly once, in ascending ticket order. */
  lemma PassengerListingComplete(s: State, ref: int)
    requires Wf(s)
    ensures TicketSet(PassengersOf(s, ref)) == TicketsOf(s.passengers, ref)
    ensures forall i, j :: 0 <= i < j < |PassengersOf(s, ref)| ==>
      PassengersOf(s, ref)[i].ticketNumber < PassengersOf(s, ref)[j].ticketNumber
    ensures forall i :: 0 <= i < |PassengersOf(s, ref)| ==> PassengersOf(s, ref)[i].referenceId == ref
  {
    var ps := PassengersOf(s, ref);
    var ts := TicketsBetween(s.passengers, ref, 0, s.nextTicket);
    assert forall i :: 0 <= i < |ps| ==> ps[i].ticketNumber == ts[i];
    forall t | t in TicketsOf(s.passengers, ref)
      ensures t in TicketSet(ps)
    {
      assert t in ts;
      var i :| 0 <= i < |ts| && ts[i] == t;
      assert ps[i].ticketNumber == t;
    }
  }

  /** Reference ids of user `userId`'s bookings in [lo, hi), ascending. */
  function ReferencesBetween(B: map<int, Booking>, userId: int, lo: int, hi: int): (r: seq<int>)
    decreases hi - lo
    ensures forall i, j :: 0 <= i < j < |r| ==> r[i] < r[j]
    ensures forall i :: 0 <= i < |r| ==> lo <= r[i] < hi && r[i] in B && B[r[i]].userId == userId
    ensures forall k :: k in B && B[k].userId == userId && lo <= k < hi ==> k in r
  {
    if hi <= lo then []
    else
      var rest := ReferencesBetween(B, userId, lo + 1, hi);
      if lo in B && B[lo].userId == userId then [lo] + rest else rest
  }

  /** `getBookingForUserRepository`: a user's bookings in reference order. */
  function BookingsOfUser(s: State, userId: int): (r: seq<Booking>)
    ensures |r| == |ReferencesBetween(s.bookings, userId, 0, s.nextReference)|
    ensures forall i :: 0 <= i < |r| ==>
      var k := ReferencesBetween(s.bookings, userId, 0, s.nextReference)[i]; k in s.bookings && r[i] == s.bookings[k]
  {
    var ks := ReferencesBetween(s.bookings, userId, 0, s.nextReference);
    seq(|ks|, i requires 0 <= i < |ks| => s.bookings[ks[i]])
  }

  /** `findById` on a booking followed by loading its passenger list. */
  function ViewOf(s: State, ref: int): BookingView
    requires ref in s.bookings
  {
    BookingView(s.bookings[ref], PassengersOf(s, ref))
  }

  // ----------------------------------------------------------------- writes

  /** `callBookingSave` when the procedure succeeds: a new booking in status
      B under the next reference id. */
  function SaveBooking(s: State, userId: int, flight: FlightKey, seats: Int32, totalCost: int): (State, int) {
    var ref := s.nextReference;
    (s.(bookings := s.bookings[ref := Booking(ref, userId, flight, Booked, seats, totalCost)],
        nextReference := ref + 1),
     ref)
  }

  /** `callPassengerSave` when the procedure succeeds: a new passenger in
      status B under the next ticket number. */
  function SavePassenger(s: State, ref: int, name: string, age: int): (State, int) {
    var t := s.nextTicket;
    (s.(passengers := s.passengers[t := Passenger(t, ref, name, age, Booked)],
        nextTicket := t + 1),
     t)
  }

  /** `cancelBookingRepository`: sets the booking's status to C and reports
      the number of rows updated. */
  function CancelBookingRow(B: map<int, Booking>, ref: int): (map<int, Booking>, nat) {
    if ref in B then (B[ref := B[ref].(status := Cancelled)], 1) else (B, 0)
  }

  /** `cancelPassengerByTicketRepository`: sets to C the passenger with this
      ticket number and reference id, and reports the number of rows updated. */
  function CancelTicketRow(P: map<int, Passenger>, ticket: int, ref: int): (map<int, Passenger>, nat) {
    if ticket in P && P[ticket].referenceId == ref then (P[ticket := P[ticket].(status := Cancelled)], 1)
    else (P, 0)
  }

  /** `updateFlightAvailSeatsRepository`: overwrites the seat count of one
      row and reports the number of rows updated. */
  function UpdateSeats(A: map<FlightKey, FlightAvail>, key: FlightKey, seats: Int32): (map<FlightKey, FlightAvail>, nat) {
    if key in A then (A[key := A[key].(seats := seats)], 1) else (A, 0)
  }

  /** The flight-row lookup and seat update both cancellations end with: the
      `n` seats they freed go back to flight `key`. The key is read through
      the booking's flight link whatever `n` is, so a booking whose flight row
      is missing fails here even when nothing is returned. The update itself
      cannot miss, since the row was just found. */
  function ReturnSeats(A: map<FlightKey, FlightAvail>, key: FlightKey, n: nat): (r: Result<map<FlightKey, FlightAvail>>)
    ensures r.Err? <==> key !in A
    ensures r.Err? ==> r.error == FlightNotAvailable
    ensures r.Ok? && n == 0 ==> r.value == A
    ensures r.Ok? && n > 0 ==> r.value == A[key := A[key].(seats := Wrap(A[key].seats + n))]
  {
    if key !in A then Err(FlightNotAvailable)
    else if n == 0 then Ok(A)
    else
      var update := UpdateSeats(A, key, Wrap(A[key].seats + n));
      if update.1 == 0 then Err(SeatUpdateFailed) else Ok(update.0)
  }

  /** A successful `booking_save` adds exactly one booking, in status B, under
      a fresh reference id, and changes nothing else. */
  lemma SaveBookingAddsOne(s: State, userId: int, flight: FlightKey, seats: Int32, totalCost: int)
    ensures var r := SaveBooking(s, userId, flight, seats, totalCost);
      && r.1 == s.nextReference && r.0.nextReference == r.1 + 1
      && (Wf(s) ==> r.1 !in s.bookings)
      && r.0.bookings.Keys == s.bookings.Keys + {r.1}
      && r.0.bookings[r.1] == Booking(r.1, userId, flight, Booked, seats, totalCost)
      && r.0.avail == s.avail && r.0.passengers == s.passengers && r.0.nextTicket == s.nextTicket
      && forall k :: k in s.bookings && k != r.1 ==> r.0.bookings[k] == s.bookings[k]
  {
  }

  /** A successful `passenger_save` adds exactly one passenger, in status B,
      under a fresh ticket number, and changes nothing else. */
  lemma SavePassengerAddsOne(s: State, ref: int, name: string, age: int)
    ensures var r := SavePassenger(s, ref, name, age);
      && r.1 == s.nextTicket && r.0.nextTicket == r.1 + 1
      && (Wf(s) ==> r.1 !in s.passengers)
      && r.0.passengers.Keys == s.passengers.Keys + {r.1}
      && r.0.passengers[r.1] == Passenger(r.1, ref, name, age, Booked)
      && r.0.avail == s.avail && r.0.bookings == s.bookings && r.0.nextReference == s.nextReference
      && forall t :: t in s.passengers && t != r.1 ==> r.0.passengers[t] == s.passengers[t]
  {
  }

  /** The booking status update touches the one row with that reference id,
      and reports one updated row exactly when it exists. */
  lemma CancelBookingRowFlips(B: map<int, Booking>, ref: int)
    ensures var r := CancelBookingRow(B, ref);
      && r.1 == (if ref in B then 1 else 0)
      && r.0.Keys == B.Keys
      && forall k :: k in B ==> r.0[k] == if k == ref then B[k].(status := Cancelled) else B[k]
  {
  }

  /** The ticket status update touches only the row matching both ticket and
      reference, and reports one updated row exactly when it exists. */
  lemma CancelTicketRowFlips(P: map<int, Passenger>, ticket: int, ref: int)
    ensures var r := CancelTicketRow(P, ticket, ref);
      && (r.1 == 1 <==> ticket in P && P[ticket].referenceId == ref)
      && r.1 <= 1
      && r.0.Keys == P.Keys
      && forall t :: t in P ==>
           r.0[t] == if t == ticket && r.1 == 1 then P[t].(status := Cancelled) else P[t]
  {
  }

  /** The seat update overwrites the seat count of the one row with that key,
      and reports one updated row exactly when it exists. */
  lemma UpdateSeatsWrites(A: map<FlightKey, FlightAvail>, key: FlightKey, seats: Int32)
    ensures var r := UpdateSeats(A, key, seats);
      && r.1 == (if key in A then 1 else 0)
      && r.0.Keys == A.Keys
      && forall k :: k in A ==> r.0[k] == if k == key then A[k].(seats := seats) else A[k]
  {
  }
}

=== FILE: validation.dfy ===
/**
  Request validation (the `Validation` utility class). Each validator checks
  the fields of one request shape in a fixed order and reports the first
  field that fails, or `Valid`.
 */
module Validation {
  import opened JavaLang

  /** The fields of a user registration request that are validated. */
  datatype UserRequest = UserRequest(
    name: Nullable<string>,
    password: Nullable<string>,
    cardNumber: Nullable<string>,
    cardType: Nullable<char>,
    cardMonth: Nullable<int>,
    cardYear: Nullable<int>,
    age: Nullable<int>)

  /** One passenger entry of a booking request. */
  datatype PassengerRequest = PassengerRequest(
    name: Nullable<string>,
    age: Nullable<int>,
    status: Nullable<string>)

  /** A booking request; `totalCost` is whatever the client sent. */
  datatype BookingRequest = BookingRequest(
    userId: Nullable<int>,
    flightId: Nullable<string>,
    flightDate: Nullable<Date>,
    status: Nullable<string>,
    bookedSeats: Nullable<Int32>,
    totalCost: Nullable<int>,
    passengers: seq<PassengerRequest>)

  /** A request to cancel some tickets of a booking; only the ticket number
      of each listed passenger is read. */
  datatype CancelPassengersRequest = CancelPassengersRequest(
    referenceId: Nullable<int>,
    ticketNumbers: seq<Nullable<int>>)

  datatype Field =
    | UserName | Password | CardNumber | CardType | CardMonth | CardYear | UserAge
    | PassengerName | PassengerAge | PassengerStatus
    | UserId | FlightId | FlightDate | BookingStatus | BookedSeats | TotalCost | PassengerList
    | ReferenceId | TicketNumber

  /** `Invalid` is a `ValidationFailureException` naming the field;
      `NullUnboxed` is the `NullPointerException` raised by comparing a null
      `Integer` with a number. */
  datatype Verdict = Valid | Invalid(field: Field) | NullUnboxed(field: Field)

  predicate StringValidation(data: Nullable<string>) {
    data.NonNull? && data.value != ""
  }

  predicate IntegerValidation<T>(data: Nullable<T>) {
    data.NonNull?
  }

  /** The textual form of a non-null date is never empty, so only null fails. */
  predicate DateValidation(date: Nullable<Date>) {
    date.NonNull?
  }

  /** A status string that passes the null/empty check and equals "B" ignoring case. */
  predicate IsBookedCode(status: Nullable<string>) {
    StringValidation(status) && EqualsIgnoreCase(status.value, "B")
  }

  // Ordered check tables: the reference against which each validator's
  // cascade of ifs is verified.

  predicate AllPass(oks: seq<bool>) {
    forall i :: 0 <= i < |oks| ==> oks[i]
  }

  /** `f` is the field of the first failing check. */
  predicate FailsFirst(fields: seq<Field>, oks: seq<bool>, f: Field) {
    exists i :: 0 <= i < |fields| && i < |oks| && fields[i] == f && !oks[i] && forall j :: 0 <= j < i ==> oks[j]
  }

  /** A failing check preceded only by passing ones is the first failure. */
  lemma FirstFailure(fields: seq<Field>, oks: seq<bool>, i: nat)
    requires i < |fields| && i < |oks| && !oks[i]
    requires forall j :: 0 <= j < i ==> oks[j]
    ensures FailsFirst(fields, oks, fields[i]) && !AllPass(oks)
  {
  }

  const UserFields: seq<Field> := [UserName, Password, CardNumber, CardType, CardMonth, CardYear, UserAge]

  function UserChecks(u: UserRequest): seq<bool> {
    [ StringValidation(u.name),
      StringValidation(u.password),
      StringValidation(u.cardNumber) && |u.cardNumber.value| == 16,
      u.cardType == NonNull('C'),
      u.cardMonth.NonNull? && 1 <= u.cardMonth.value <= 12,
      u.cardYear.NonNull? && 2022 <= u.cardYear.value <= 2030,
      u.age.NonNull? && 18 <= u.age.value <= 100 ]
  }

  /** The numeric fields compared without a null check first. */
  predicate UnboxesNull(u: UserRequest, f: Field) {
    match f
    case CardMonth => u.cardMonth.Null?
    case CardYear => u.cardYear.Null?
    case UserAge => u.age.Null?
    case _ => false
  }

  function UserValidation(u: UserRequest): (r: Verdict)
    ensures r.Valid? <==> AllPass(UserChecks(u))
    ensures !r.Valid? ==> FailsFirst(UserFields, UserChecks(u), r.field)
  {
    var oks := UserChecks(u);
    if !StringValidation(u.name) then
      FirstFailure(UserFields, oks, 0);
      Invalid(UserName)
    else if !StringValidation(u.password) then
      FirstFailure(UserFields, oks, 1);
      Invalid(Password)
    else if !StringValidation(u.cardNumber) || |u.cardNumber.value| != 16 then
      FirstFailure(UserFields, oks, 2);
      Invalid(CardNumber)
    else if u.cardType.Null? || u.cardType.value != 'C' then
      // a null type raises NullPointerException, caught and reported as invalid
      FirstFailure(UserFields, oks, 3);
      Invalid(CardType)
    else if u.cardMonth.Null? || u.cardMonth.value < 1 || u.cardMonth.value > 12 then
      FirstFailure(UserFields, oks, 4);
      if u.cardMonth.Null? then NullUnboxed(CardMonth) else Invalid(CardMonth)
    else if u.cardYear.Null? || u.cardYear.value < 2022 || u.cardYear.value > 2030 then
      FirstFailure(UserFields, oks, 5);
      if u.cardYear.Null? then NullUnboxed(CardYear) else Invalid(CardYear)
    else if u.age.Null? || u.age.value < 18 || u.age.value > 100 then
      FirstFailure(UserFields, oks, 6);
      if u.age.Null? then NullUnboxed(UserAge) else Invalid(UserAge)
    else
      Valid
  }

  /** A null card month, card year or age is reported as the
      `NullPointerException` of unboxing it; every other failure as invalid. */
  lemma UserNullsUnboxed(u: UserRequest)
    ensures var r := UserValidation(u);
      !r.Valid? ==> (r.NullUnboxed? <==> UnboxesNull(u, r.field))
  {
  }

  const PassengerFields: seq<Field> := [PassengerName, PassengerAge, PassengerStatus]

  function PassengerChecks(p: PassengerRequest): seq<bool> {
    [StringValidation(p.name), IntegerValidation(p.age), IsBookedCode(p.status)]
  }

  function PassengerValidation(p: PassengerRequest): (r: Verdict)
    ensures !r.NullUnboxed?
    ensures r.Valid? ==> p.name.NonNull? && p.age.NonNull?
    ensures r.Valid? <==> AllPass(PassengerChecks(p))
    ensures r.Invalid? ==> FailsFirst(PassengerFields, PassengerChecks(p), r.field)
  {
    var oks := PassengerChecks(p);
    if !StringValidation(p.name) then
      FirstFailure(PassengerFields, oks, 0);
      Invalid(PassengerName)
    else if !IntegerValidation(p.age) then
      FirstFailure(PassengerFields, oks, 1);
      Invalid(PassengerAge)
    else if !IsBookedCode(p.status) then
      // both the null/empty check and the "B" comparison report the status
      FirstFailure(PassengerFields, oks, 2);
      Invalid(PassengerStatus)
    else
      Valid
  }

  /** A passenger entry passes exactly when it has a non-empty name, an age,
      and the status "B" in either case. */
  lemma PassengerAcceptance(p: PassengerRequest)
    ensures PassengerValidation(p).Valid? <==>
      && p.name.NonNull? && p.name.value != ""
      && p.age.NonNull?
      && (p.status == NonNull("B") || p.status == NonNull("b"))
  {
    if p.status.NonNull? {
      IgnoreCaseLetter(p.status.value, 'B');
    }
  }

  /** The passenger loop of the booking check: the first entry that fails decides. */
  function PassengersValidation(ps: seq<PassengerRequest>): (r: Verdict)
    decreases |ps|
    ensures !r.NullUnboxed?
    ensures r.Valid? <==> forall i :: 0 <= i < |ps| ==> PassengerValidation(ps[i]).Valid?
    ensures !r.Valid? ==> exists i :: 0 <= i < |ps| && r == PassengerValidation(ps[i])
                                   && forall j :: 0 <= j < i ==> PassengerValidation(ps[j]).Valid?
  {
    if |ps| == 0 then Valid
    else
      var v := PassengerValidation(ps[0]);
      if !v.Valid? then v
      else
        var rest := PassengersValidation(ps[1..]);
        assert forall i :: 1 <= i < |ps| ==> ps[1..][i - 1] == ps[i];
        if rest.Valid? then rest
        else
          var k :| 0 <= k < |ps[1..]| && rest == PassengerValidation(ps[1..][k])
                   && forall j :: 0 <= j < k ==> PassengerValidation(ps[1..][j]).Valid?;
          assert ps[1..][k] == ps[k + 1];
          assert forall j :: 0 <= j < k + 1 ==> PassengerValidation(ps[j]).Valid? by {
            forall j | 0 <= j < k + 1
              ensures PassengerValidation(ps[j]).Valid?
            {
              if j > 0 { assert ps[j] == ps[1..][j - 1]; }
            }
          }
          rest
  }

  const BookingFields: seq<Field> := [UserId, FlightId, FlightDate, BookingStatus, BookedSeats, TotalCost, PassengerList]

  function BookingChecks(b: BookingRequest): seq<bool> {
    [ IntegerValidation(b.userId),
      StringValidation(b.flightId),
      DateValidation(b.flightDate),
      IsBookedCode(b.status),
      IntegerValidation(b.bookedSeats),
      IntegerValidation(b.totalCost),
      |b.passengers| > 0 ]
  }

  function BookingValidation(b: BookingRequest): (r: Verdict)
    ensures !r.NullUnboxed?
    ensures r.Valid? <==> AllPass(BookingChecks(b)) && PassengersValidation(b.passengers).Valid?
    ensures r.Valid? ==> b.userId.NonNull? && b.flightId.NonNull? && b.flightDate.NonNull? && b.bookedSeats.NonNull?
    ensures !AllPass(BookingChecks(b)) ==> r.Invalid? && FailsFirst(BookingFields, BookingChecks(b), r.field)
    ensures AllPass(BookingChecks(b)) ==> r == PassengersValidation(b.passengers)
  {
    var oks := BookingChecks(b);
    if !IntegerValidation(b.userId) then
      FirstFailure(BookingFields, oks, 0);
      Invalid(UserId)
    else if !StringValidation(b.flightId) then
      FirstFailure(BookingFields, oks, 1);
      Invalid(FlightId)
    else if !DateValidation(b.flightDate) then
      FirstFailure(BookingFields, oks, 2);
      Invalid(FlightDate)
    else if !IsBookedCode(b.status) then
      FirstFailure(BookingFields, oks, 3);
      Invalid(BookingStatus)
    else if !IntegerValidation(b.bookedSeats) then
      FirstFailure(BookingFields, oks, 4);
      Invalid(BookedSeats)
    else if !IntegerValidation(b.totalCost) then
      FirstFailure(BookingFields, oks, 5);
      Invalid(TotalCost)
    else if |b.passengers| == 0 then
      FirstFailure(BookingFields, oks, 6);
      Invalid(PassengerList)
    else
      PassengersValidation(b.passengers)
  }

  /** A booking request passes only with the status "B" in either case and
      at least one passenger, each of whom passes. */
  lemma BookingAcceptance(b: BookingRequest)
    ensures BookingValidation(b).Valid? ==>
      && (b.status == NonNull("B") || b.status == NonNull("b"))
      && |b.passengers| > 0
      && forall i :: 0 <= i < |b.passengers| ==> PassengerValidation(b.passengers[i]).Valid?
  {
    if BookingValidation(b).Valid? {
      assert BookingChecks(b)[3];
      IgnoreCaseLetter(b.status.value, 'B');
      assert BookingChecks(b)[6];
    }
  }

  /** The seat count and the client's total are only checked for presence:
      any present values pass alike. */
  lemma SeatsAndCostOnlyNeedPresence(b: BookingRequest, seats: Int32, cost: int)
    requires b.bookedSeats.NonNull? && b.totalCost.NonNull?
    ensures BookingValidation(b.(bookedSeats := NonNull(seats), totalCost := NonNull(cost))) == BookingValidation(b)
  {
    var b' := b.(bookedSeats := NonNull(seats), totalCost := NonNull(cost));
    assert BookingChecks(b') == BookingChecks(b);
  }

  /** The ticket loop of the cancellation check. */
  function TicketsValidation(ts: seq<Nullable<int>>): (r: bool)
    decreases |ts|
    ensures r <==> forall i :: 0 <= i < |ts| ==> ts[i].NonNull?
  {
    if |ts| == 0 then true
    else if ts[0].Null? then false
    else
      assert forall i :: 1 <= i < |ts| ==> ts[1..][i - 1] == ts[i];
      TicketsValidation(ts[1..])
  }

  function CancelPassengerValidation(c: CancelPassengersRequest): (r: Verdict)
    ensures r.Valid? <==> c.referenceId.NonNull? && forall i :: 0 <= i < |c.ticketNumbers| ==> c.ticketNumbers[i].NonNull?
    ensures r == Invalid(ReferenceId) <==> c.referenceId.Null?
    ensures r == Invalid(TicketNumber) <==>
      c.referenceId.NonNull? && exists i :: 0 <= i < |c.ticketNumbers| && c.ticketNumbers[i].Null?
    ensures r.Valid? || r == Invalid(ReferenceId) || r == Invalid(TicketNumber)
  {
    if !IntegerValidation(c.referenceId) then Invalid(ReferenceId)
    else if !TicketsValidation(c.ticketNumbers) then Invalid(TicketNumber)
    else Valid
  }
}
